=== FILE: README.md ===
# apschool server core, in Dafny

A model of the request-independent decision logic of the apschool Go server.
apschool is a programming-exercise site: users log in with GitHub, receive a
session token (a JWT), and submit solutions to challenges. The model covers
six pieces:

- **Identity provisioning**: the user store (`users` and
  `user_auth_github`) and `CreateUserByGithub`, which either resolves a
  GitHub id to its user or creates a user and then links it.
- **Session tokens**: `GenerateJWT` and `ValidateJWT` over golang-jwt v5,
  with the JSON/base64url codecs and HMAC left abstract. The assumptions
  made of them (`Jwt.Sound`) can all be met at once: `JoseWitness` builds
  codecs and a MAC that meet them and proves it (`WitnessIsSound`).
- **The bearer gate**: `RequireAuth`, which splits the Authorization header
  and asks the validator.
- **The GitHub login flow**: choosing the primary verified email, building
  the authorize URL, and the callback's ordered steps and its redirect.
- **Submissions**: the upsert keyed by (user, challenge), the pass check in
  the service, and the status-code decisions of the handlers.
- **The README parser** of the challenge seeder.

All state is immutable. Stores are maps with a counter for the next id.
Operations are functions returning `Result` values, status codes, or the list
of responses a handler writes. A database connection failure is a `down`
flag per repository call; in the provisioning service it is a set of
`faults` that names which calls fail. The Go library functions that the core
depends on are modelled as they behave, in modules of their own:

- `strings.Split`, `SplitN(…, 2)`, `TrimPrefix` and `TrimSpace`;
- `strconv.Atoi` on a 64-bit platform, including the value it returns
  alongside an error.

Modules, one per file:

- `wrappers`, `database`, `http`: shared result types, database error kinds,
  and status constants.
- `go_strings`, `go_strconv`: the Go library functions.
- `auth_repository`, `auth_service`: the user store and provisioning.
- `jwt`: session tokens.
- `jose_witness`: a concrete instance of the abstract codecs and MAC,
  showing that the assumptions about them are consistent.
- `middleware`: the bearer gate.
- `github_oauth`: the login flow.
- `submission_repository`, `submission_service`, `submission_handler`: the
  submissions stack.
- `seed`: the README parser.

Behaviour of the code worth knowing, which the model keeps:

- The callback answers 500 for a GitHub account with no primary verified
  email, as it does for every other failed step.
- A unique-key conflict during provisioning is not retried. The service
  returns the error, and after a failed link the new user stays behind
  without one.
- The three GitHub calls never look at the HTTP status. An error answer
  whose body still decodes is taken at face value (an empty access token,
  say), and the flow carries on with it. The model's upstream calls fail
  only on a transport error or a body that does not decode.
- `internal/auth/service.go` declares `CreateUserByGithub` without an email
  parameter. Its caller in `internal/auth/handler.go` and its tests pass one,
  so the email-carrying signature is modelled.

## Model

| member | source | states |
|---|---|---|
| AuthRepository.CreateUser | server/internal/auth/repository.go:16-31 | The insert succeeds exactly when the connection holds and no stored user has the email. The new user has a fresh non-zero id, carries the given username, email and avatar, and is the only row added. A refused insert leaves the users unchanged. It reports a connection error when the database is down, and otherwise a unique violation on email. Links are never touched, and emails stay unique. |
| AuthRepository.GetUserByID | server/internal/auth/repository.go:33-45 | Returns the stored row for the id. An unknown id is "no rows" and a broken connection is a connection error. |
| AuthRepository.CreatedUserFound | server/internal/auth/repository.go:16-45 | Read after write: with a working connection and a new email, the insert succeeds and GetUserByID then returns exactly the inserted user under its id. |
| AuthRepository.GetUserByGithubID | server/internal/auth/repository.go:47-62 | Succeeds exactly when the GitHub id is linked to a stored user, and returns that user through the join. Otherwise it is "no rows" or a connection error. |
| AuthRepository.CreateGithubAuth | server/internal/auth/repository.go:64-74 | Links the GitHub id to the user exactly when the id is not yet linked. An already-linked id fails with a unique violation on github_id and leaves the links unchanged. Users and the id sequence are never touched. |
| AuthRepository.LinkedUserFound | server/internal/auth/repository.go:47-74 | Read after link: once a stored user is linked to an unlinked GitHub id, GetUserByGithubID returns that user. |
| AuthRepository.GetUserByEmail | server/internal/auth/repository.go:76-80 | The stub returns no user and no error, whatever the store holds. |
| AuthService.CreateUserByGithub | internal/auth/service.go:18-39 | A successful lookup returns that user after one call and writes nothing. Any failed lookup, not only "no rows", goes down the create path. The calls made are always a prefix of lookup, insert, link. A user that is returned is stored and linked to the GitHub id. |
| AuthService.ProvisionNew | internal/auth/service.go:27-38 | The insert is refused exactly when it fails or the email is already stored: then the insert was the last call and users and links are unchanged. Otherwise exactly one user with the given profile, created and updated at `now`, is added and the link decides the outcome. A successful link maps the GitHub id to the new user. A failed link returns an error and leaves the new user orphaned. |
| AuthService.ProvisioningIdempotent | internal/auth/service.go:20-24 | After a successful provisioning, a second call for the same GitHub id (with a working lookup) returns the same user, whatever profile it carries, with one call and no write. |
| AuthService.TransientLookupFailureOrphansUser | internal/auth/service.go:21-36 | A lookup that fails for a linked GitHub id still creates a user. The link then fails on github_id, so the call reports an error, one more user is stored, and the links are unchanged. |
| AuthService.GetUserByID | internal/auth/service.go:41-48 | Returns the stored user. Every repository error, whatever its cause, becomes UserNotFound. |
| AuthService.ProvisionedUserFound | internal/auth/service.go:18-48 | Whichever path produced it, a user CreateUserByGithub returns is what GetUserByID then finds under its id. |
| Jwt.GenerateJWT | internal/auth/jwt.go:11-19 | Under codecs that meet the assumptions, the issued token has three segments and no space, and validates at once, under the same secret, to the user id it was issued for. |
| Jwt.ValidateJWT | internal/auth/jwt.go:21-47 | Every rejection returns user id 0, and a token that does not have exactly three segments is malformed. Acceptance implies all of the following: both objects decode, the header names a registered algorithm of the HMAC family, the third segment decodes to the MAC of the first two under the secret, exp/nbf are satisfied, user_id is a number, and the returned id is that number truncated toward zero. |
| Jwt.ValidateSegments | internal/auth/jwt.go:24-45 | A header or claims segment that does not decode is malformed, and a signature segment that does not decode is an error. Acceptance requires all of the following: the header names a registered algorithm of the HMAC family, the signature segment decodes to the bytes of the MAC of `header.claims` under the secret, the time claims hold, and user_id is numeric. The returned id is that number truncated toward zero. |
| Jwt.IssuedTokenShape | internal/auth/jwt.go:11-19 | An issued token splits into exactly its encoded header, its encoded claims, and the HS256 MAC of the two under the secret. It contains no space. |
| Jwt.IssuedTokenClaims | internal/auth/jwt.go:13-17 | The issued header names HS256. The issued claims are user_id equal to the user id and exp equal to the issue time plus 86400 seconds. |
| Jwt.ValidateIssued | internal/auth/jwt.go:21-45 | For an issued token, the whole outcome under any verifying secret and clock: signature mismatch, then expiry, otherwise the issued user id. |
| Jwt.Hs256SegmentsValidate | internal/auth/jwt.go:24-45 | Under the issued HS256 header, validation checks the signature, then the time claims, then user_id, in that order. |
| Jwt.TokenRoundTrip | server/internal/auth/jwt_test.go:35-53 | Validating an issued token under the same secret, before it expires, yields exactly the user id it was issued for. |
| Jwt.ExpiredTokenRejected | server/internal/auth/jwt_test.go:84-89 | From its expiry on, an issued token is rejected with invalid claims and user id 0. |
| Jwt.WrongSecretRejected | server/internal/auth/jwt_test.go:90-95 | A token signed with one secret is rejected, with user id 0, under any secret whose HMAC key block differs from the signer's. |
| Jwt.EquivalentSecretAccepted | internal/auth/jwt.go:24-29 | A secret with the same HMAC key block as the signer's accepts the signer's token before it expires, with the issued user id. |
| Jwt.RespelledSignatureAccepted | internal/auth/jwt.go:24-33 | The signature is compared by the bytes its segment decodes to: any base64url segment that decodes to the issued signature validates like the issued one. |
| Jwt.NonHmacRejected | internal/auth/jwt.go:24-29 | A well-formed token (its numbers rational, as every JSON number is) whose header names a registered algorithm outside the HMAC family, "none" included, is rejected as unverifiable under every secret. |
| Jwt.MissingUserIdRejected | internal/auth/jwt.go:40-43 | A correctly signed, timely HS256 token whose user_id is missing or not a number is rejected with user id 0. |
| Jwt.MalformedTokensRejected | server/internal/auth/jwt_test.go:96-107 | The empty string and "not.a.valid.token" are rejected as malformed, with user id 0. |
| Middleware.BearerToken | server/internal/middleware/auth.go:26-32 | A header that yields a token is exactly "Bearer " followed by that token, and the token has no space. |
| Middleware.BearerTokenComplete | server/internal/middleware/auth.go:26-32 | Conversely, "Bearer " followed by any space-free token (the empty one included) yields that token. |
| Middleware.RequireAuth | server/internal/middleware/auth.go:15-45 | Every rejection is 401. The request is forwarded exactly when the header yields a bearer token that the validator accepts. It is forwarded with the validated user id. |
| Middleware.IssuedTokenPassesGate | server/internal/middleware/auth.go:32-43 | An issued token, presented as a bearer token within 24 hours under the same secret, is forwarded with the user id it was issued for. |
| Middleware.MalformedHeadersRejected | server/internal/middleware/auth.go:19-30 | These headers all get 401: a missing header, a lower-case scheme, a doubled space, and a bare token. |
| Middleware.EmptyBearerRejected | server/internal/middleware/auth.go:26-39 | "Bearer " passes the header check with an empty token, and the validator then refuses it with 401. |
| GithubOauth.AuthorizeUrl | internal/auth/handler.go:39-50 | The login URL goes to GitHub's authorize endpoint, and its query reads back as client_id, redirect_uri and scope=user:email, in that order, provided neither setting contains '&'. |
| GithubOauth.GithubLogin | internal/auth/handler.go:39-50 | The login answers 307, and its Location goes to GitHub's authorize endpoint with a query that reads back as client_id, redirect_uri and scope=user:email, in that order, provided neither setting contains '&'. |
| GithubOauth.SelectEmail | internal/auth/handler.go:168-174 | Fails exactly when no entry is both primary and verified, the empty list included. Otherwise it returns the address of the first such entry in list order. |
| GithubOauth.GithubCallback | internal/auth/handler.go:52-91 | An empty code gives 400 before any step. The steps exchange, user, email, provision, token run in order, and each runs exactly when the previous ones succeeded. The first failure gives 500 and no Location. Nothing is written before provisioning. Once the email is chosen, provisioning runs on the GitHub id, login and avatar and that email. The store afterwards is the one it leaves, and 307 comes exactly when it succeeds. The 307's target is the frontend URL + "/auth/callback?token=" + the token issued for the user it returned. |
| GithubOauth.CallbackTokenAuthenticates | internal/auth/handler.go:83-90 | End to end: the token in the callback's redirect, presented to the bearer gate within 24 hours, is forwarded as the user the GitHub account is linked to. |
| GithubOauth.ReturningUserKeepsIdentity | internal/auth/handler.go:77-90 | A second successful login by the same GitHub account (with a working lookup) writes nothing and redirects with a token for the same user. |
| SubmissionRepository.SameTextDistinctErrors | internal/submissions/repository.go:9 | "Not found" and "not passed" are distinct errors that carry the same text. |
| SubmissionRepository.Create | internal/submissions/repository.go:19-36 | On success, the store's pairs are the old ones plus the submission's pair, and the rows of other pairs are unchanged. The caller's submission becomes the stored row. A new pair gets a fresh id and created_at = now. An existing pair keeps its id and created_at and takes the new code, passed flag and updated_at. A broken connection changes nothing. |
| SubmissionRepository.GetByUserAndChallenge | internal/submissions/repository.go:38-65 | Returns the row for the pair. An absent pair is NotFound and a broken connection is passed up. |
| SubmissionRepository.GetByUser | internal/submissions/repository.go:67-104 | Lists exactly the user's rows, each once, in unspecified order. A broken connection is an error. |
| SubmissionRepository.CreateThenGet | internal/submissions/repository.go:19-65 | What Create stores for a pair is what the lookup then returns for it. |
| SubmissionRepository.UpsertKeepsIdentity | internal/submissions/repository.go:21-26 | Submitting twice for the same pair leaves one row, with the first id and creation time and the second code and update time. |
| SubmissionService.CreateSubmission | internal/submissions/service.go:18-26 | A submission that did not pass is refused with NotPassed and the store is not touched. A passing one is the repository's upsert with its user id replaced by the authenticated user's. |
| SubmissionService.GetUserSubmission | internal/submissions/service.go:28-30 | The repository's lookup, passed through unchanged. It never reports NotPassed. |
| SubmissionService.GetUserSubmissions | internal/submissions/service.go:32-34 | The repository's listing: exactly the user's rows, each once. |
| SubmissionService.OnlyPassingStored | internal/submissions/service.go:19-25 | If every stored submission passed, that stays true after any create. |
| SubmissionService.SubmissionsStayWithTheirUser | internal/submissions/service.go:23-25 | A create never adds or changes a row of any other user. |
| SubmissionHandler.ValidationErrors | internal/submissions/handler.go:34-36 | challenge_id is reported exactly when it is 0, and code exactly when NotBlank rejects it. Both are reported as "is required". |
| SubmissionHandler.CreateSubmissionsHandler | internal/submissions/handler.go:24-54 | An undecodable body gets 400 with the decoder's message. Failed field checks get 422 with the field errors, before the pass check. A valid submission that did not pass gets 400. A store failure gets 500. Only a 201 writes, and it answers with the row now stored under the authenticated user. |
| SubmissionHandler.GetSubmissionsHandler | internal/submissions/handler.go:56-66 | 200 with exactly the user's rows, each once, or 500 when the store fails. |
| SubmissionHandler.GetSubmissionHandlerAsWritten | internal/submissions/handler.go:68-88 | Two responses are written exactly when Atoi fails: first 400, then the lookup of whatever value Atoi returned. |
| SubmissionHandler.GetSubmissionHandler | internal/submissions/handler.go:68-88 | Exactly one response. It is 400 exactly when the id does not parse. Otherwise it is 200 with the row when the pair is stored, 404 when it is absent, and 500 when the store fails. |
| SubmissionHandler.HandlersAgreeOnValidIds | internal/submissions/handler.go:72-77 | The two versions write the same thing whenever the id parses. |
| SubmissionHandler.AsWrittenAnswersTwice | internal/submissions/handler.go:72-77 | "abc" gets 400 and then, as written, the user's stored submission for challenge 0. The corrected handler writes only the 400. |
| SubmissionHandler.AsWrittenLooksUpZero | internal/submissions/handler.go:72-77 | Every parameter that is not a numeral gets 400 and then, as written, the lookup of challenge 0, as long as the digits before its first non-digit fit in 64 bits. The corrected handler writes only the 400. |
| SubmissionHandler.AsWrittenLooksUpClampedId | internal/submissions/handler.go:72-77 | The decimal form of 2^63 gets 400 and then, as written, the lookup of challenge 2^63-1. |
| SubmissionHandler.LookupByDecimalId | internal/submissions/handler.go:70-87 | Any int64 challenge id written in decimal is read back and looks up exactly that pair. |
| SubmissionHandler.CreatedSubmissionIsReadable | internal/submissions/handler.go:24-88 | After a 201, GET for that challenge id returns 200 with the same submission. |
| Seed.ParseReadme | cmd/seed/main.go:137-154 | The title is the first line with at most one "# " removed, then stripped of surrounding spaces, and has no line break. The description is the text after the first line break, stripped, or empty when there is none. Neither has a space at either end. |
| Seed.ReadmeRoundTrip | cmd/seed/main.go:138-151 | "# " + title + "\n" + description reads back as (title, description) for a one-line title and a description that may span lines, when neither has surrounding spaces. |
| Seed.TitleOnly | cmd/seed/main.go:149-151 | A README without a line break has an empty description. |
| Seed.IndentedHeadingKeepsHash | cmd/seed/main.go:145-147 | " # title" keeps its "#", because the prefix is removed before the trim. |
| GoStrings.Split | server/internal/middleware/auth.go:26 | strings.Split: at least one piece, no piece holds the separator, and joining the pieces with it gives back the input. |
| GoStrings.SplitJoin | server/internal/middleware/auth.go:26-27 | Splitting a join of separator-free pieces gives back those pieces. |
| GoStrings.SplitN2 | cmd/seed/main.go:138 | strings.SplitN(s, sep, 2): one piece (the input) exactly when the separator is absent. Otherwise two pieces, the text before the first separator and the rest. |
| GoStrings.TrimPrefix | cmd/seed/main.go:145 | Removes one copy of the prefix when it is there, and leaves the input alone otherwise. |
| GoStrings.TrimSpace | cmd/seed/main.go:147 | The result is a slice of the input with only spaces before and after it, and no space at either end. |
| GoStrings.OnlyTrimSpaceStrips | cmd/seed/main.go:147 | Conversely, any string with that property is TrimSpace's result, so the property fully determines it. |
| GoStrings.TrimSpaceIdempotent | cmd/seed/main.go:147 | Trimming twice equals trimming once. |
| GoStrconv.ParseInt | internal/submissions/handler.go:72 | A numeral (an optional sign, then one or more ASCII digits) whose value is in the int64 range reads as that value without error. A numeral above the range gives MaxInt64 and a range error, and one below gives MinInt64 and a range error. Anything else is a syntax error with 0, unless the digits before its first non-digit already exceed 2^64-1. In that case it is a range error with the bound of its sign. The value always lies in the int64 range. |
| GoStrconv.Atoi | internal/submissions/handler.go:72 | strconv.Atoi, fast path included, answers exactly as the checked 64-bit ParseInt does, including the value that comes with an error. |
| GoStrconv.AtoiFastPathAgrees | internal/submissions/handler.go:72 | Atoi's unchecked fast path for inputs under 19 characters agrees with the checked ParseInt on every such input. |
| GoStrconv.AtoiItoa | internal/submissions/handler.go:72 | Atoi reads back, without error, the decimal form of every int64. |

## Left out

- The three GitHub HTTP calls and their JSON decoding (`exchangeCodeForToken`, `getGithubUser`, and the fetch half of `getGithubEmail`) are inputs. Each either yields its decoded answer or fails. The HTTP client's timeout is not modelled.
- Environment variables (JWT_SECRET, GITHUB_CLIENT_ID, GITHUB_REDIRECT_URI, FRONTEND_URL) are parameters.
- The clock is a parameter in whole Unix seconds. The exp claim is written as whole seconds, so nothing below a second matters.
- HMAC-SHA256, base64url and JSON belong to golang-jwt and encoding/json, and are the abstract fields of `Jwt.Jose`. `Jwt.Sound` states what is assumed of them. Decoding undoes encoding for every object whose numbers are rational, and every number JSON can write is. Encoded segments use the base64url alphabet. The signature segment decodes back to the signature bytes. The MAC separates key blocks. It does not separate secrets: HMAC pads a short key with zero bytes and hashes a long one, so two secrets can share a key block. That is why `keyBlock` is a field of its own.
- The lenient base64url decoding of the signature segment is the abstract `sigDecode`. Which spellings it accepts is not modelled; the model only requires that it undoes `sigEncode`.
- golang-jwt versions differ on whether the signature segment is decoded before or after the key function runs. The model runs the key function first. Only the error kind of a token that fails both checks depends on this.
- Token signing cannot fail in the model, so GenerateJWT's error path and the callback's 500 for it are left out.
- JSON numbers are exact reals. Irrational reals, which no JSON text denotes, are outside the codec assumption. float64 rounding of user ids and timestamps above 2^53 is not modelled.
- The library's claim validation is modelled for exp and nbf only. golang-jwt v5 checks iat, aud and iss only when asked to, and this code never asks.
- SQL text, `database/sql`, foreign keys, timestamps' time zones and the test database setup are not modelled. The stores stand in for the tables, and their uniqueness rules for the constraints.
- Concurrency is not modelled, including the race between two first logins of the same GitHub account. Calls are sequential.
- Routing, CORS, server start-up and shutdown, and the request context are not modelled. The gate hands the handler the user id directly.
- The JSON envelope helpers (BadRequest, NotFound, Unauthorized, ServerError, ValidationError, WriteJSON, ReadJSON) are not part of this model. Only their status codes and the body kind are kept. ServerError's logging is not modelled.
- A nil slice encodes as JSON null where the model has an empty listing. Fields tagged `json:"-"` are not distinguished.
- `validator.NotBlank` is not part of this model and is a parameter.
- GithubOauth.AuthorizeUrl and GithubOauth.GithubCallback: http.Redirect's rewriting of relative URLs, its HTML body and its percent-escaping of non-ASCII bytes in the Location are not modelled. The Location is the string the handler builds, which differs from what is sent only when a setting (FRONTEND_URL, GITHUB_CLIENT_ID, GITHUB_REDIRECT_URI) holds non-ASCII text.
- `GithubOauth.QueryPairs` reads the query without percent-decoding, and it does not stop at a '#'. This is enough to show how the unescaped settings land in it. A '#' in a setting would begin a fragment in a real URL and cut `scope=user:email` off the query. The read-back that `GithubOauth.AuthorizeUrl` and `GithubOauth.GithubLogin` state does not cover that case.
- The challenge lookups, the seeder's file and database I/O, the earlier email-less draft of the auth repository and models, the Angular frontend and the `tests.py` scripts are not modelled.
- `Jwt.IssuedTokenClaims` states the issued objects as the model encodes them; JSON field order and the `typ` header's effect are not modelled.
- `Jwt.ExpiredTokenRejected` assumes an expiry time other than 0, because golang-jwt treats a numeric exp of 0 as absent.
- `GoStrconv.Atoi` counts runes, where Go counts bytes for the fast-path bound. Both paths give the same answer below 19 runes, so the result is unaffected.
- `Seed.ParseReadme` keeps the source's guard for an empty split, and it is unreachable.

## Findings

| source | as written | input that shows it | evidently intended | confidence | as-written member | corrected member |
|---|---|---|---|---|---|---|
| internal/submissions/handler.go:72-77 | When `strconv.Atoi` fails, the handler writes 400 but does not return. It then looks up the value Atoi returned (0, or the clamped int64 bound) and writes a second response. | GET with challenge_id "abc" by a user who has a submission for challenge 0. The client sees status 400, and the body also carries that submission. | Return right after the 400. | not executed | SubmissionHandler.GetSubmissionHandlerAsWritten (shown by SubmissionHandler.AsWrittenAnswersTwice and SubmissionHandler.AsWrittenLooksUpClampedId) | SubmissionHandler.GetSubmissionHandler |

=== FILE: auth_repository.dfy ===
/** The user store of server/internal/auth/repository.go: the `users` table
    and the `user_auth_github` link table, kept as maps. The two uniqueness
    rules the integration tests assert are part of the model: `users.email`
    is unique (checked on insert), and `user_auth_github.github_id` is
    unique (it is the key of the link map). Every call takes `down`, which
    stands for a failure of the database connection on that call. */
module AuthRepository {
  import opened Wrappers
  import opened Database

  datatype User = User(id: int, username: string, email: string, avatarUrl: string, createdAt: int, updatedAt: int)

  /** `users` maps an id to its row; `links` maps a GitHub id to the user id
      it belongs to; `nextId` is the next value of the id sequence. */
  datatype Store = Store(users: map<int, User>, links: map<int, int>, nextId: int)

  /** A store after a write, and what the write returned. */
  datatype Change<T> = Change(store: Store, result: Result<T, DbError>)

  /** What the table definitions guarantee: ids come from a sequence that
      starts at 1, every row is filed under its own id, and no two rows
      share an email. */
  predicate Valid(s: Store) {
    && s.nextId >= 1
    && (forall id :: id in s.users ==> 1 <= id < s.nextId && s.users[id].id == id)
    && (forall a, b :: a in s.users && b in s.users && s.users[a].email == s.users[b].email ==> a == b)
  }

  predicate EmailTaken(s: Store, email: string) {
    exists id :: id in s.users && s.users[id].email == email
  }

  /** The GitHub id is linked, and the join in GetUserByGithubID finds the user. */
  predicate Linked(s: Store, githubId: int) {
    githubId in s.links && s.links[githubId] in s.users
  }

  /** CreateUser: inserts a row with a fresh non-zero id and the given
      profile, unless the email is already stored. As in PostgreSQL, the
      refused insert still draws a value from the id sequence. */
  function CreateUser(s: Store, username: string, email: string, avatarUrl: string, now: int, down: bool): (r: Change<User>)
    requires Valid(s)
    ensures Valid(r.store)
    ensures r.store.links == s.links
    ensures r.result.Success? <==> !down && !EmailTaken(s, email)
    ensures r.result.Success? ==>
      var u := r.result.value;
      && u.id != 0 && u.id !in s.users
      && u.username == username && u.email == email && u.avatarUrl == avatarUrl
      && u.createdAt == now && u.updatedAt == now
      && r.store.users == s.users[u.id := u]
    ensures r.result.Failure? ==> r.store.users == s.users
    ensures r.result.Failure? ==> r.result.error == if down then ConnectionError else UniqueViolation("email")
  {
    if down then Change(s, Failure(ConnectionError))
    else if EmailTaken(s, email) then Change(s.(nextId := s.nextId + 1), Failure(UniqueViolation("email")))
    else
      var u := User(s.nextId, username, email, avatarUrl, now, now);
      Change(Store(s.users[u.id := u], s.links, s.nextId + 1), Success(u))
  }

  /** GetUserByID: the row with that id; an unknown id is sql.ErrNoRows. */
  function GetUserByID(s: Store, id: int, down: bool): (r: Result<User, DbError>)
    ensures r.Success? <==> !down && id in s.users
    ensures r.Success? ==> r.value == s.users[id]
    ensures r.Failure? ==> r.error == if down then ConnectionError else NoRows
  {
    if down then Failure(ConnectionError)
    else if id in s.users then Success(s.users[id])
    else Failure(NoRows)
  }

  /** GetUserByGithubID: the user the GitHub id is linked to, through the
      join of the two tables; an unlinked id is sql.ErrNoRows. */
  function GetUserByGithubID(s: Store, githubId: int, down: bool): (r: Result<User, DbError>)
    ensures r.Success? <==> !down && Linked(s, githubId)
    ensures r.Success? ==> r.value == s.users[s.links[githubId]]
    ensures r.Failure? ==> r.error == if down then ConnectionError else NoRows
  {
    if down then Failure(ConnectionError)
    else if Linked(s, githubId) then Success(s.users[s.links[githubId]])
    else Failure(NoRows)
  }

  /** CreateGithubAuth: links the GitHub id to the user, unless it is
      already linked. Only the link table changes. */
  function CreateGithubAuth(s: Store, userId: int, githubId: int, down: bool): (r: Change<()>)
    ensures r.store.users == s.users && r.store.nextId == s.nextId
    ensures Valid(s) ==> Valid(r.store)
    ensures r.result.Success? <==> !down && githubId !in s.links
    ensures r.result.Success? ==> r.store.links == s.links[githubId := userId]
    ensures r.result.Failure? ==> r.store.links == s.links
    ensures r.result.Failure? ==> r.result.error == if down then ConnectionError else UniqueViolation("github_id")
  {
    if down then Change(s, Failure(ConnectionError))
    else if githubId in s.links then Change(s, Failure(UniqueViolation("github_id")))
    else Change(s.(links := s.links[githubId := userId]), Success(()))
  }

  /** GetUserByEmail is an unimplemented stub: no user and no error, whatever
      the store holds. */
  function GetUserByEmail(s: Store, email: string): (r: Result<Option<User>, DbError>)
    ensures r.Success? && r.value.None?
  {
    Success(None)
  }

  /** Read after write: a user CreateUser inserts is what GetUserByID finds
      under its id, and the insert succeeds whenever the email is new. */
  lemma CreatedUserFound(s: Store, username: string, email: string, avatarUrl: string, now: int)
    requires Valid(s)
    requires !EmailTaken(s, email)
    ensures var c := CreateUser(s, username, email, avatarUrl, now, false);
      && c.result.Success?
      && GetUserByID(c.store, c.result.value.id, false) == Success(c.result.value)
  {
  }

  /** Read after link: once CreateGithubAuth links a stored user,
      GetUserByGithubID returns that user. */
  lemma LinkedUserFound(s: Store, userId: int, githubId: int)
    requires userId in s.users && githubId !in s.links
    ensures var c := CreateGithubAuth(s, userId, githubId, false);
      && c.result.Success?
      && GetUserByGithubID(c.store, githubId, false) == Success(s.users[userId])
  {
  }
}

=== FILE: auth_service.dfy ===
/** The provisioning service of internal/auth/service.go, over the user
    store. Calls are sequential; the concurrent first-login race is outside
    the model. */
module AuthService {
  import opened Wrappers
  import opened Database
  import opened AuthRepository

  /** The repository calls the service makes. */
  datatype Call = LookupByGithub | InsertUser | InsertLink

  const FullProvisioning: seq<Call> := [LookupByGithub, InsertUser, InsertLink]

  /** The store after provisioning, the user or error returned, and the
      repository calls made, in order. */
  datatype Provisioned = Provisioned(store: Store, result: Result<User, DbError>, calls: seq<Call>)

  datatype ServiceError = UserNotFound

  /** The insert failed: an error, the insert was the last call, and
      nothing changed. */
  predicate InsertRefused(s: Store, r: Provisioned, faults: set<Call>, email: string) {
    && r.calls == [LookupByGithub, InsertUser]
    && r.result.Failure?
    && (InsertUser in faults || EmailTaken(s, email))
    && r.store.users == s.users && r.store.links == s.links
  }

  /** The insert succeeded: exactly one new user, carrying the given
      profile and stamped `now` as both created and updated, and every old
      user untouched. */
  predicate UserInserted(s: Store, r: Provisioned, username: string, email: string, avatarUrl: string, now: int) {
    && s.users.Keys < r.store.users.Keys
    && |r.store.users.Keys - s.users.Keys| == 1
    && (forall id :: id in s.users ==> r.store.users[id] == s.users[id])
    && (forall id :: id in r.store.users && id !in s.users ==>
          var u := r.store.users[id];
          && u.username == username && u.email == email && u.avatarUrl == avatarUrl
          && u.createdAt == now && u.updatedAt == now)
  }

  /** After the insert, the link decides the outcome: success links the new
      user; a failed link leaves it orphaned and the links unchanged. */
  predicate LinkDecided(s: Store, r: Provisioned, faults: set<Call>, githubId: int) {
    && r.calls == FullProvisioning
    && (r.result.Success? <==> InsertLink !in faults && githubId !in s.links)
    && (r.result.Success? ==> r.result.value.id !in s.users && r.store.links == s.links[githubId := r.result.value.id])
    && (r.result.Failure? ==> r.store.links == s.links)
  }

  /** Whatever succeeded, the returned user is stored and linked to the
      GitHub id. */
  predicate ReturnsLinkedUser(r: Provisioned, githubId: int) {
    r.result.Success? ==>
      && Linked(r.store, githubId)
      && r.store.links[githubId] == r.result.value.id
      && r.store.users[r.result.value.id] == r.result.value
  }

  /** CreateUserByGithub (with the email-carrying signature the callback
      handler and the tests use): if the GitHub id resolves, that user is
      returned and nothing is written. After ANY lookup error, not only "no
      rows", a user is created and then linked; a failed insert stops there,
      and a failed link leaves the new user behind without a link. The
      calls in `faults` fail with a connection error. */
  function CreateUserByGithub(s: Store, faults: set<Call>, githubId: int, username: string, email: string,
                              avatarUrl: string, now: int): (r: Provisioned)
    requires Valid(s)
    ensures Valid(r.store)
    ensures 1 <= |r.calls| <= 3 && r.calls == FullProvisioning[..|r.calls|]
    // the lookup succeeds: that user, unchanged, and no write at all
    ensures LookupByGithub !in faults && Linked(s, githubId) ==>
      r == Provisioned(s, Success(s.users[s.links[githubId]]), [LookupByGithub])
    // the lookup fails, for whatever reason: the create path
    ensures !(LookupByGithub !in faults && Linked(s, githubId)) ==>
      r == ProvisionNew(s, faults, githubId, username, email, avatarUrl, now)
    ensures ReturnsLinkedUser(r, githubId)
  {
    var found := GetUserByGithubID(s, githubId, LookupByGithub in faults);
    if found.Success? then Provisioned(s, Success(found.value), [LookupByGithub])
    else ProvisionNew(s, faults, githubId, username, email, avatarUrl, now)
  }

  /** The create path: insert the user, then link it. Either the insert is
      refused and nothing changes, or exactly one user is added and the link
      decides the outcome. */
  function ProvisionNew(s: Store, faults: set<Call>, githubId: int, username: string, email: string,
                        avatarUrl: string, now: int): (r: Provisioned)
    requires Valid(s)
    ensures Valid(r.store)
    ensures r.calls == FullProvisioning[..2] || r.calls == FullProvisioning
    // a failing insert or a stored email refuses the insert; otherwise one
    // user is added and the link decides
    ensures InsertUser in faults || EmailTaken(s, email) ==> InsertRefused(s, r, faults, email)
    ensures !(InsertUser in faults || EmailTaken(s, email)) ==>
      UserInserted(s, r, username, email, avatarUrl, now) && LinkDecided(s, r, faults, githubId)
    ensures ReturnsLinkedUser(r, githubId)
  {
    var created := CreateUser(s, username, email, avatarUrl, now, InsertUser in faults);
    if created.result.Failure? then
      Provisioned(created.store, Failure(created.result.error), [LookupByGithub, InsertUser])
    else
      var user := created.result.value;
      var linked := CreateGithubAuth(created.store, user.id, githubId, InsertLink in faults);
      assert linked.store.users.Keys - s.users.Keys == {user.id};
      if linked.result.Failure? then
        Provisioned(linked.store, Failure(linked.result.error), FullProvisioning)
      else
        Provisioned(linked.store, Success(user), FullProvisioning)
  }

  /** Logging in twice with the same GitHub id: once the first call has
      succeeded, the second returns the same user, whatever profile it
      carries, and writes nothing. */
  lemma ProvisioningIdempotent(s: Store, faults: set<Call>, githubId: int, username: string, email: string,
                               avatarUrl: string, now: int, faults2: set<Call>, username2: string, email2: string,
                               avatarUrl2: string, now2: int)
    requires Valid(s)
    requires CreateUserByGithub(s, faults, githubId, username, email, avatarUrl, now).result.Success?
    requires LookupByGithub !in faults2
    ensures var first := CreateUserByGithub(s, faults, githubId, username, email, avatarUrl, now);
      var second := CreateUserByGithub(first.store, faults2, githubId, username2, email2, avatarUrl2, now2);
      && second.store == first.store
      && second.result == first.result
      && second.calls == [LookupByGithub]
  {
  }

  /** A lookup that fails for a reason other than "no rows" still sends the
      service down the create path: for an already-linked GitHub id whose
      email is new, the result is an error and a user without a link. */
  lemma TransientLookupFailureOrphansUser(s: Store, githubId: int, username: string, email: string,
                                          avatarUrl: string, now: int)
    requires Valid(s)
    requires Linked(s, githubId)
    requires !EmailTaken(s, email)
    ensures var r := CreateUserByGithub(s, {LookupByGithub}, githubId, username, email, avatarUrl, now);
      && r.result == Failure(UniqueViolation("github_id"))
      && |r.store.users| == |s.users| + 1
      && r.store.links == s.links
  {
    var r := CreateUserByGithub(s, {LookupByGithub}, githubId, username, email, avatarUrl, now);
    assert |r.calls| == 3;
    var added := r.store.users.Keys - s.users.Keys;
    assert r.store.users.Keys == s.users.Keys + added;
    assert |r.store.users.Keys| == |s.users.Keys| + |added|;
  }

  /** GetUserByID: the stored user, and UserNotFound for every repository
      error, whatever its cause. */
  function GetUserByID(s: Store, id: int, down: bool): (r: Result<User, ServiceError>)
    ensures r.Success? <==> !down && id in s.users
    ensures r.Success? ==> r.value == s.users[id]
    ensures r.Failure? ==> r.error == UserNotFound
  {
    match AuthRepository.GetUserByID(s, id, down)
    case Success(u) => Success(u)
    case Failure(_) => Failure(UserNotFound)
  }

  /** Read after provisioning: the user CreateUserByGithub returns is what
      GetUserByID finds under its id, whichever path produced it. */
  lemma ProvisionedUserFound(s: Store, faults: set<Call>, githubId: int, username: string, email: string,
                             avatarUrl: string, now: int)
    requires Valid(s)
    ensures var r := CreateUserByGithub(s, faults, githubId, username, email, avatarUrl, now);
      r.result.Success? ==> GetUserByID(r.store, r.result.value.id, false) == Success(r.result.value)
  {
  }
}

=== FILE: database.dfy ===
/** What the store can answer besides a row: the errors `database/sql` and
    PostgreSQL hand back to the repositories. */
module Database {

  datatype DbError =
    /** sql.ErrNoRows: a single-row query matched nothing. */
    | NoRows
    /** A unique constraint refused an insert; the constraint is named by its column. */
    | UniqueViolation(column: string)
    /** Any failure unrelated to the data: lost connection, cancelled context. */
    | ConnectionError
}

=== FILE: github_oauth.dfy ===
/** The GitHub login flow of internal/auth/handler.go. The three outbound
    calls to GitHub are inputs (an `Upstream` value: each call either yields
    its decoded answer or fails); environment variables are parameters. What
    is modelled is the decision logic around them: the authorize URL, the
    choice of email, the fixed order of the callback's steps with abort on
    the first failure, and the redirect that carries the session token. */
module GithubOauth {
  import opened Wrappers
  import opened Http
  import GoStrings
  import AuthRepository
  import AuthService
  import Jwt
  import Middleware

  /** One entry of GitHub's `/user/emails` answer. */
  datatype GithubEmail = GithubEmail(email: string, primary: bool, verified: bool)

  /** The fields of GitHub's `/user` answer the handler reads. */
  datatype GithubUser = GithubUser(id: int, login: string, avatarUrl: string)

  /** The three GitHub calls: code to access token, access token to user,
      access token to the email list. None stands for a transport error or a
      body that does not decode. The HTTP status is never looked at, so an
      error answer whose body decodes yields whatever fields it carries (an
      empty access token, say) and the flow goes on with them. */
  datatype Upstream = Upstream(
    exchange: string -> Option<string>,
    user: string -> Option<GithubUser>,
    emails: string -> Option<seq<GithubEmail>>)

  const AuthorizeEndpoint: string := "https://github.com/login/oauth/authorize"
  const ClientIdKey: string := "client_id"
  const RedirectUriKey: string := "redirect_uri"
  const ScopeKey: string := "scope"
  const Scope: string := "user:email"

  /** The query GithubLogin writes: the two settings pasted in as they
      are, without escaping, followed by the fixed scope. */
  function LoginQuery(clientId: string, redirectUri: string): string {
    ClientIdKey + "=" + clientId + "&" + RedirectUriKey + "=" + redirectUri + "&" + ScopeKey + "=" + Scope
  }

  /** GithubLogin's redirect target: GitHub's authorize endpoint, whose
      query reads back as `client_id`, `redirect_uri` and `scope=user:email`,
      in that order, as long as neither setting contains '&' (a setting that
      does breaks the query apart, since nothing is escaped). */
  function AuthorizeUrl(clientId: string, redirectUri: string): (url: string)
    ensures GoStrings.SplitN2(url, '?')[0] == AuthorizeEndpoint
    ensures '&' !in clientId && '&' !in redirectUri ==>
      QueryPairs(url) == [(ClientIdKey, clientId), (RedirectUriKey, redirectUri), (ScopeKey, Scope)]
  {
    EndpointHasNoQuery();
    SeparatorLiterals();
    GoStrings.SplitN2Of(AuthorizeEndpoint, '?', LoginQuery(clientId, redirectUri));
    LoginQueryReadsBack(clientId, redirectUri);
    AuthorizeEndpoint + "?" + LoginQuery(clientId, redirectUri)
  }

  /** What GithubLogin answers: a status and the Location it sets. */
  datatype LoginReply = LoginReply(status: int, location: string)

  /** GithubLogin: a 307 redirect to GitHub's authorize endpoint, carrying
      the client id, the redirect URI and the email scope in its query. */
  function GithubLogin(clientId: string, redirectUri: string): (r: LoginReply)
    ensures r.status == StatusTemporaryRedirect
    ensures GoStrings.SplitN2(r.location, '?')[0] == AuthorizeEndpoint
    ensures '&' !in clientId && '&' !in redirectUri ==>
      QueryPairs(r.location) == [(ClientIdKey, clientId), (RedirectUriKey, redirectUri), (ScopeKey, Scope)]
  {
    LoginReply(StatusTemporaryRedirect, AuthorizeUrl(clientId, redirectUri))
  }

  /** The raw query of a URL read back as key/value pairs: the text after the
      first '?', cut at every '&', each piece cut at its first '='. No
      percent-decoding is done. */
  function QueryPairs(url: string): (r: seq<(string, string)>)
    ensures '?' !in url ==> r == []
  {
    var halves := GoStrings.SplitN2(url, '?');
    if |halves| == 1 then []
    else
      PairsOf(GoStrings.Split(halves[1], '&'))
  }

  function PairsOf(pieces: seq<string>): (r: seq<(string, string)>)
    ensures |r| == |pieces|
    ensures forall i :: 0 <= i < |pieces| ==> r[i] == KeyValue(pieces[i])
  {
    seq(|pieces|, i requires 0 <= i < |pieces| => KeyValue(pieces[i]))
  }

  function KeyValue(piece: string): (string, string) {
    var kv := GoStrings.SplitN2(piece, '=');
    if |kv| == 1 then (kv[0], "") else (kv[0], kv[1])
  }

  lemma LoginQueryReadsBack(clientId: string, redirectUri: string)
    ensures '&' !in clientId && '&' !in redirectUri ==>
      QueryPairs(AuthorizeEndpoint + "?" + LoginQuery(clientId, redirectUri))
      == [(ClientIdKey, clientId), (RedirectUriKey, redirectUri), (ScopeKey, Scope)]
  {
    if '&' !in clientId && '&' !in redirectUri {
      var pieces := [ClientIdKey + "=" + clientId, RedirectUriKey + "=" + redirectUri, ScopeKey + "=" + Scope];
      AuthorizeQueryPieces(clientId, redirectUri);
      assert QueryPairs(AuthorizeEndpoint + "?" + LoginQuery(clientId, redirectUri)) == PairsOf(pieces);
      PairsOfThree(pieces[0], pieces[1], pieces[2]);
      KeysHaveNoEquals();
      KeyValueOf(ClientIdKey, clientId);
      KeyValueOf(RedirectUriKey, redirectUri);
      KeyValueOf(ScopeKey, Scope);
    }
  }

  lemma PairsOfThree(a: string, b: string, c: string)
    ensures PairsOf([a, b, c]) == [KeyValue(a), KeyValue(b), KeyValue(c)]
  {
  }

  /** The authorize URL's query cut at '&'. */
  lemma AuthorizeQueryPieces(clientId: string, redirectUri: string)
    requires '&' !in clientId && '&' !in redirectUri
    ensures var halves := GoStrings.SplitN2(AuthorizeEndpoint + "?" + LoginQuery(clientId, redirectUri), '?');
      && |halves| == 2
      && GoStrings.Split(halves[1], '&')
         == [ClientIdKey + "=" + clientId, RedirectUriKey + "=" + redirectUri, ScopeKey + "=" + Scope]
  {
    var a := ClientIdKey + "=" + clientId;
    var b := RedirectUriKey + "=" + redirectUri;
    var c := ScopeKey + "=" + Scope;
    var query := a + ['&'] + b + ['&'] + c;
    SeparatorLiterals();
    assert LoginQuery(clientId, redirectUri) == query;
    EndpointHasNoQuery();
    GoStrings.SplitN2Of(AuthorizeEndpoint, '?', query);
    KeysHaveNoAmpersand();
    NotInConcat(ClientIdKey + "=", clientId, '&');
    NotInConcat(RedirectUriKey + "=", redirectUri, '&');
    var parts := [a, b, c];
    assert forall i :: 0 <= i < |parts| ==> '&' !in parts[i];
    GoStrings.JoinThree(a, b, c, '&');
    GoStrings.SplitJoin(parts, '&');
  }

  lemma SeparatorLiterals()
    ensures "?" == ['?'] && "&" == ['&']
  {
  }

  lemma EndpointHasNoQuery()
    ensures '?' !in AuthorizeEndpoint
  {
  }

  lemma KeysHaveNoAmpersand()
    ensures '&' !in ClientIdKey + "=" && '&' !in RedirectUriKey + "="
    ensures '&' !in ScopeKey + "=" + Scope
  {
  }

  lemma KeysHaveNoEquals()
    ensures '=' !in ClientIdKey && '=' !in RedirectUriKey && '=' !in ScopeKey
  {
  }

  lemma NotInConcat(x: string, y: string, c: char)
    requires c !in x && c !in y
    ensures c !in x + y
  {
  }

  lemma KeyValueOf(key: string, value: string)
    requires '=' !in key
    ensures KeyValue(key + "=" + value) == (key, value)
  {
    GoStrings.SplitN2Of(key, '=', value);
  }

  predicate Qualifies(e: GithubEmail) {
    e.primary && e.verified
  }

  datatype EmailError = NoPrimaryVerifiedEmail

  /** The selection half of getGithubEmail: the address of the first entry,
      in list order, that is both primary and verified; an error when there is
      none, the empty list included. */
  function SelectEmail(emails: seq<GithubEmail>): (r: Result<string, EmailError>)
    ensures r.Failure? <==> forall i :: 0 <= i < |emails| ==> !Qualifies(emails[i])
    ensures r.Success? ==>
      exists i :: 0 <= i < |emails| && Qualifies(emails[i]) && r.value == emails[i].email
        && forall k :: 0 <= k < i ==> !Qualifies(emails[k])
  {
    if |emails| == 0 then Failure(NoPrimaryVerifiedEmail)
    else if Qualifies(emails[0]) then Success(emails[0].email)
    else
      var rest := SelectEmail(emails[1..]);
      if rest.Success? then
        ghost var i :| 0 <= i < |emails[1..]| && Qualifies(emails[1..][i]) && rest.value == emails[1..][i].email
          && forall k :: 0 <= k < i ==> !Qualifies(emails[1..][k]);
        assert Qualifies(emails[i + 1]) && forall k :: 0 <= k < i + 1 ==> !Qualifies(emails[k]) by {
          forall k | 0 < k < i + 1 ensures !Qualifies(emails[k]) {
            assert emails[k] == emails[1..][k - 1];
          }
        }
        rest
      else
        assert forall k :: 0 < k < |emails| ==> !Qualifies(emails[k]) by {
          forall k | 0 < k < |emails| ensures !Qualifies(emails[k]) {
            assert emails[k] == emails[1..][k - 1];
          }
        }
        rest
  }

  /** The callback's steps, in the order they run. */
  datatype Step = Exchange | FetchUser | FetchEmail | Provision | IssueToken

  const AllSteps: seq<Step> := [Exchange, FetchUser, FetchEmail, Provision, IssueToken]

  /** The status and Location the callback writes, the steps it ran, and the
      user store afterwards. */
  datatype CallbackReply = CallbackReply(status: int, location: string, steps: seq<Step>, store: AuthRepository.Store)

  const CallbackPath: string := "/auth/callback?token="

  /** GithubCallback. `faults` names the repository calls that fail during
      provisioning; token signing does not fail in this model. */
  function GithubCallback(s: AuthRepository.Store, faults: set<AuthService.Call>, code: string, up: Upstream,
                          j: Jwt.Jose, secret: string, now: int, frontendUrl: string): (r: CallbackReply)
    requires AuthRepository.Valid(s)
    ensures AuthRepository.Valid(r.store)
    ensures r.status in {StatusBadRequest, StatusInternalServerError, StatusTemporaryRedirect}
    ensures |r.steps| <= |AllSteps| && r.steps == AllSteps[..|r.steps|]
    // no code: 400 before any call
    ensures r.status == StatusBadRequest <==> code == ""
    ensures code == "" ==> r.steps == [] && r.store == s
    // the steps run in order and stop at the first failure, which gives 500
    ensures |r.steps| >= 2 <==> code != "" && up.exchange(code).Some?
    ensures |r.steps| >= 3 <==> |r.steps| >= 2 && up.user(up.exchange(code).value).Some?
    ensures |r.steps| >= 4 <==> |r.steps| >= 3 && up.emails(up.exchange(code).value).Some?
                                && SelectEmail(up.emails(up.exchange(code).value).value).Success?
    ensures r.status == StatusInternalServerError <==> 1 <= |r.steps| && r.status != StatusTemporaryRedirect
    ensures r.status == StatusTemporaryRedirect <==> r.steps == AllSteps
    // nothing is written before provisioning
    ensures |r.steps| < 4 ==> r.store == s
    ensures r.status != StatusTemporaryRedirect ==> r.location == ""
    // provisioning runs on the GitHub profile and the chosen email, and its
    // outcome decides the answer
    ensures |r.steps| >= 4 ==>
      var accessToken := up.exchange(code).value;
      var gh := up.user(accessToken).value;
      var p := AuthService.CreateUserByGithub(s, faults, gh.id, gh.login, SelectEmail(up.emails(accessToken).value).value,
                                              gh.avatarUrl, now);
      && r.store == p.store
      && (r.status == StatusTemporaryRedirect <==> p.result.Success?)
      && (r.status == StatusTemporaryRedirect ==>
            r.location == frontendUrl + CallbackPath + Jwt.GenerateJWT(j, p.result.value.id, secret, now))
    // success: the GitHub user is linked, and the redirect carries its token
    ensures r.status == StatusTemporaryRedirect ==>
      var gh := up.user(up.exchange(code).value).value;
      && AuthRepository.Linked(r.store, gh.id)
      && r.location == frontendUrl + CallbackPath + Jwt.GenerateJWT(j, r.store.links[gh.id], secret, now)
  {
    if code == "" then CallbackReply(StatusBadRequest, "", [], s)
    else match up.exchange(code)
      case None => CallbackReply(StatusInternalServerError, "", [Exchange], s)
      case Some(accessToken) =>
        match up.user(accessToken)
        case None => CallbackReply(StatusInternalServerError, "", [Exchange, FetchUser], s)
        case Some(gh) =>
          var email := if up.emails(accessToken).None? then Failure(NoPrimaryVerifiedEmail)
                       else SelectEmail(up.emails(accessToken).value);
          if email.Failure? then CallbackReply(StatusInternalServerError, "", AllSteps[..3], s)
          else
            var p := AuthService.CreateUserByGithub(s, faults, gh.id, gh.login, email.value, gh.avatarUrl, now);
            if p.result.Failure? then CallbackReply(StatusInternalServerError, "", AllSteps[..4], p.store)
            else
              var token := Jwt.GenerateJWT(j, p.result.value.id, secret, now);
              CallbackReply(StatusTemporaryRedirect, frontendUrl + CallbackPath + token, AllSteps, p.store)
  }

  /** The whole login, end to end: the token in the callback's redirect,
      presented to the bearer gate within 24 hours under the same secret,
      authenticates the user the GitHub account is linked to. */
  lemma CallbackTokenAuthenticates(s: AuthRepository.Store, faults: set<AuthService.Call>, code: string,
                                   up: Upstream, j: Jwt.Jose, secret: string, now: int, frontendUrl: string,
                                   later: int)
    requires AuthRepository.Valid(s)
    requires Jwt.Sound(j)
    requires later < now + Jwt.Lifetime
    requires GithubCallback(s, faults, code, up, j, secret, now, frontendUrl).status == StatusTemporaryRedirect
    ensures var r := GithubCallback(s, faults, code, up, j, secret, now, frontendUrl);
      var gh := up.user(up.exchange(code).value).value;
      var token := GoStrings.TrimPrefix(r.location, frontendUrl + CallbackPath);
      && r.location == frontendUrl + CallbackPath + token
      && Middleware.RequireAuth(j, "Bearer " + token, secret, later) == Middleware.Forwarded(r.store.links[gh.id])
  {
    var r := GithubCallback(s, faults, code, up, j, secret, now, frontendUrl);
    var gh := up.user(up.exchange(code).value).value;
    var issued := Jwt.GenerateJWT(j, r.store.links[gh.id], secret, now);
    var prefix := frontendUrl + CallbackPath;
    assert r.location == prefix + issued;
    assert GoStrings.HasPrefix(r.location, prefix);
    assert GoStrings.TrimPrefix(r.location, prefix) == issued;
    Middleware.IssuedTokenPassesGate(j, r.store.links[gh.id], secret, now, later);
  }

  /** A returning user: once a callback has succeeded, a second one for the
      same GitHub account (with a healthy lookup) writes nothing and
      redirects with a token for the same user. */
  lemma ReturningUserKeepsIdentity(s: AuthRepository.Store, faults: set<AuthService.Call>, code: string,
                                   up: Upstream, j: Jwt.Jose, secret: string, now: int, frontendUrl: string,
                                   faults2: set<AuthService.Call>, code2: string, up2: Upstream, now2: int)
    requires AuthRepository.Valid(s)
    requires GithubCallback(s, faults, code, up, j, secret, now, frontendUrl).status == StatusTemporaryRedirect
    requires AuthService.LookupByGithub !in faults2
    requires GithubCallback(GithubCallback(s, faults, code, up, j, secret, now, frontendUrl).store,
                            faults2, code2, up2, j, secret, now2, frontendUrl).status == StatusTemporaryRedirect
    requires up2.user(up2.exchange(code2).value).value.id == up.user(up.exchange(code).value).value.id
    ensures var first := GithubCallback(s, faults, code, up, j, secret, now, frontendUrl);
      var second := GithubCallback(first.store, faults2, code2, up2, j, secret, now2, frontendUrl);
      var g := up.user(up.exchange(code).value).value.id;
      && second.store == first.store
      && second.location == frontendUrl + CallbackPath + Jwt.GenerateJWT(j, first.store.links[g], secret, now2)
  {
  }
}

=== FILE: go_strconv.dfy ===
/** strconv.Atoi on a 64-bit platform, as the submissions handler uses it to
    read the `challenge_id` path parameter. Go returns a value even when it
    also returns an error: 0 after a syntax error, the clamped bound after a
    range error. That value matters, because the handler goes on using it. */
module GoStrconv {
  import opened Wrappers

  const MaxInt64: int := 0x7FFF_FFFF_FFFF_FFFF
  const MinInt64: int := -0x8000_0000_0000_0000
  const MaxUint64: int := 0xFFFF_FFFF_FFFF_FFFF

  datatype NumError = ErrSyntax | ErrRange

  /** Go's `(int, error)` pair. */
  datatype Parsed = Parsed(value: int, err: Option<NumError>)

  predicate IsDigit(c: char) {
    '0' <= c <= '9'
  }

  predicate AllDigits(s: string) {
    forall k :: 0 <= k < |s| ==> IsDigit(s[k])
  }

  function DigitValue(c: char): int
    requires IsDigit(c)
  {
    c as int - '0' as int
  }

  function Pow10(n: nat): nat {
    if n == 0 then 1 else 10 * Pow10(n - 1)
  }

  /** Decimal reading of a digit string, left to right, starting from `n`. */
  function Fold(s: string, n: int): int
    requires AllDigits(s)
  {
    if |s| == 0 then n else Fold(s[1..], n * 10 + DigitValue(s[0]))
  }

  /** The digit loop of ParseUint(s, 10, 64) after `n` has been read: stops
      with a syntax error (value 0) at the first non-digit, and with a range
      error (value 2^64-1) as soon as the next step would overflow. */
  function ScanUint(s: string, n: int): Parsed
  {
    if |s| == 0 then Parsed(n, None)
    else if !IsDigit(s[0]) then Parsed(0, Some(ErrSyntax))
    else if n >= MaxUint64 / 10 + 1 then Parsed(MaxUint64, Some(ErrRange))
    else
      var n1 := n * 10 + DigitValue(s[0]);
      if n1 > MaxUint64 then Parsed(MaxUint64, Some(ErrRange))
      else ScanUint(s[1..], n1)
  }

  /** strconv.ParseUint(s, 10, 64). */
  function ParseUint(s: string): Parsed {
    if s == "" then Parsed(0, Some(ErrSyntax)) else ScanUint(s, 0)
  }

  /** The text after one optional leading sign. */
  function Unsigned(s: string): string {
    if |s| > 0 && (s[0] == '+' || s[0] == '-') then s[1..] else s
  }

  /** A well-formed base-10 numeral: an optional sign, then one or more
      ASCII digits and nothing else. */
  predicate Numeral(s: string) {
    |Unsigned(s)| >= 1 && AllDigits(Unsigned(s))
  }

  /** The mathematical value a numeral denotes, of any size. */
  function NumeralValue(s: string): int
    requires Numeral(s)
  {
    var n := Fold(Unsigned(s), 0);
    if s[0] == '-' then -n else n
  }

  /** The run of digits a string starts with. */
  function DigitPrefix(s: string): (p: string)
    ensures AllDigits(p) && |p| <= |s| && p == s[..|p|]
    ensures |p| < |s| ==> !IsDigit(s[|p|])
  {
    if |s| == 0 || !IsDigit(s[0]) then "" else [s[0]] + DigitPrefix(s[1..])
  }

  /** strconv.ParseInt(s, 10, 64): an optional sign, then ParseUint, then
      clamping to the int64 range. A numeral in range reads as its value; one
      out of range gives the nearer bound with a range error; anything else
      is an error: a syntax error with 0, unless the digits before the first
      non-digit already overflow 64 bits, which gives the range error of the
      sign's bound. */
  function ParseInt(s: string): (r: Parsed)
    ensures r.err == Some(ErrSyntax) ==> r.value == 0
    ensures r.err == Some(ErrRange) ==> r.value == MaxInt64 || r.value == MinInt64
    ensures MinInt64 <= r.value <= MaxInt64
    ensures Numeral(s) && MinInt64 <= NumeralValue(s) <= MaxInt64 ==> r == Parsed(NumeralValue(s), None)
    ensures Numeral(s) && NumeralValue(s) > MaxInt64 ==> r == Parsed(MaxInt64, Some(ErrRange))
    ensures Numeral(s) && NumeralValue(s) < MinInt64 ==> r == Parsed(MinInt64, Some(ErrRange))
    ensures !Numeral(s) ==> r.err.Some?
    ensures !Numeral(s) ==>
      r == if Fold(DigitPrefix(Unsigned(s)), 0) <= MaxUint64 then Parsed(0, Some(ErrSyntax))
           else if s[0] == '-' then Parsed(MinInt64, Some(ErrRange))
           else Parsed(MaxInt64, Some(ErrRange))
  {
    if s == "" then Parsed(0, Some(ErrSyntax))
    else
      var neg := s[0] == '-';
      var body := if s[0] == '+' || s[0] == '-' then s[1..] else s;
      var un := ParseUint(body);
      assert body == Unsigned(s);
      ScanAll(body, 0);
      ScanPrefix(body, 0);
      assert un.err.Some? ==> un.err.value.ErrSyntax? || un.err.value.ErrRange?;
      if un.err == Some(ErrSyntax) then Parsed(0, Some(ErrSyntax))
      else if !neg && un.value >= MaxInt64 + 1 then Parsed(MaxInt64, Some(ErrRange))
      else if neg && un.value > MaxInt64 + 1 then Parsed(MinInt64, Some(ErrRange))
      else
        ScanStaysInRange(body, 0);
        Parsed(if neg then -un.value else un.value, None)
  }

  /** Past a non-digit the loop's verdict depends only on the digits before
      it: a syntax error with 0 if they fit in 64 bits, a range error with
      2^64-1 if they do not. */
  lemma {:induction false} ScanPrefix(s: string, n: int)
    requires 0 <= n <= MaxUint64
    ensures !AllDigits(s) ==>
      ScanUint(s, n)
      == (if Fold(DigitPrefix(s), n) <= MaxUint64 then Parsed(0, Some(ErrSyntax)) else Parsed(MaxUint64, Some(ErrRange)))
    decreases |s|
  {
    if !AllDigits(s) && IsDigit(s[0]) {
      var n1 := n * 10 + DigitValue(s[0]);
      var p := DigitPrefix(s[1..]);
      assert DigitPrefix(s) == [s[0]] + p;
      assert ([s[0]] + p)[1..] == p;
      assert Fold(DigitPrefix(s), n) == Fold(p, n1);
      FoldAtLeast(p, n1);
      if n < MaxUint64 / 10 + 1 && n1 <= MaxUint64 {
        var k :| 0 <= k < |s| && !IsDigit(s[k]);
        assert !IsDigit(s[1..][k - 1]);
        ScanPrefix(s[1..], n1);
      }
    }
  }

  /** A non-numeral with at most 19 characters after its sign cannot
      overflow first, so it is a syntax error read as 0. */
  lemma ShortNonNumeralIsZero(s: string)
    requires !Numeral(s) && |Unsigned(s)| <= 19
    ensures ParseInt(s) == Parsed(0, Some(ErrSyntax))
  {
    var p := DigitPrefix(Unsigned(s));
    FoldBound(p, 0);
    Pow10Monotone(|p|, 19);
    Pow10Values();
  }

  lemma {:induction false} FoldAtLeast(s: string, n: int)
    requires AllDigits(s) && n >= 0
    ensures Fold(s, n) >= n
    decreases |s|
  {
    if |s| > 0 {
      FoldAtLeast(s[1..], n * 10 + DigitValue(s[0]));
    }
  }

  /** The digit loop in full: on digits it ends with their decimal value, or
      with a range error once that value passes 2^64-1; on anything else it
      ends with an error of one kind or the other. */
  lemma {:induction false} ScanAll(s: string, n: int)
    requires 0 <= n <= MaxUint64
    ensures AllDigits(s) ==>
      ScanUint(s, n) == (if Fold(s, n) > MaxUint64 then Parsed(MaxUint64, Some(ErrRange)) else Parsed(Fold(s, n), None))
    ensures !AllDigits(s) ==> ScanUint(s, n).err.Some?
    ensures ScanUint(s, n).err == Some(ErrRange) ==> ScanUint(s, n).value == MaxUint64
    decreases |s|
  {
    if |s| > 0 && IsDigit(s[0]) {
      var n1 := n * 10 + DigitValue(s[0]);
      if AllDigits(s) {
        FoldAtLeast(s[1..], n1);
      }
      if n < MaxUint64 / 10 + 1 && n1 <= MaxUint64 {
        ScanAll(s[1..], n1);
        if !AllDigits(s) {
          var k :| 0 <= k < |s| && !IsDigit(s[k]);
          assert !IsDigit(s[1..][k - 1]);
        }
      }
    }
  }

  lemma ScanStaysInRange(s: string, n: int)
    requires n >= 0
    ensures ScanUint(s, n).value >= 0
    ensures ScanUint(s, n).err.None? ==> ScanUint(s, n).value >= n
  {
  }

  /** Atoi's fast path, taken for inputs shorter than 19 bytes: an optional
      sign followed by at least one digit, read without overflow checks. */
  function FastAtoi(s: string): Parsed
    requires 0 < |s|
  {
    var signed := s[0] == '-' || s[0] == '+';
    var body := if signed then s[1..] else s;
    if signed && |body| < 1 then Parsed(0, Some(ErrSyntax))
    else if !AllDigits(body) then Parsed(0, Some(ErrSyntax))
    else
      var n := Fold(body, 0);
      Parsed(if s[0] == '-' then -n else n, None)
  }

  /** strconv.Atoi. Go measures the fast-path bound in bytes; the runes
      counted here give the same answer, because both paths agree on every
      input of fewer than 19 runes (AtoiFastPathAgrees). */
  function Atoi(s: string): (r: Parsed)
    ensures r == ParseInt(s)
  {
    if 0 < |s| < 19 then
      AtoiFastPathAgrees(s);
      FastAtoi(s)
    else ParseInt(s)
  }

  lemma MulMonotone(a: int, b: int, p: int)
    requires a <= b && p >= 0
    ensures a * p <= b * p
  {
  }

  lemma MulAssoc(a: int, b: int, c: int)
    ensures a * (b * c) == (a * b) * c
  {
  }

  lemma {:induction false} Pow10Positive(n: nat)
    ensures Pow10(n) >= 1
  {
    if n > 0 {
      Pow10Positive(n - 1);
    }
  }

  lemma {:induction false} Pow10Monotone(a: nat, b: nat)
    ensures a <= b ==> Pow10(a) <= Pow10(b)
    decreases b
  {
    if a < b {
      Pow10Monotone(a, b - 1);
      Pow10Positive(b - 1);
    }
  }

  lemma Pow10Values()
    ensures Pow10(18) == 1_000_000_000_000_000_000
    ensures Pow10(19) == 10_000_000_000_000_000_000
  {
    assert Pow10(4) == 10_000;
    assert Pow10(8) == 100_000_000;
    assert Pow10(12) == 1_000_000_000_000;
    assert Pow10(16) == 10_000_000_000_000_000;
  }

  lemma {:induction false} FoldBound(s: string, n: int)
    requires AllDigits(s) && n >= 0
    ensures n * Pow10(|s|) <= Fold(s, n) < (n + 1) * Pow10(|s|)
    decreases |s|
  {
    if |s| > 0 {
      var d := DigitValue(s[0]);
      var m := n * 10 + d;
      FoldBound(s[1..], m);
      var p := Pow10(|s| - 1);
      assert Fold(s, n) == Fold(s[1..], m);
      assert Pow10(|s|) == 10 * p;
      MulMonotone(n * 10, m, p);
      MulMonotone(m + 1, (n + 1) * 10, p);
      MulAssoc(n, 10, p);
      MulAssoc(n + 1, 10, p);
    }
  }

  /** One more digit read under a bound that leaves room for it. */
  lemma StepBound(n: int, d: int, p: int, limit: int)
    requires n >= 0 && 0 <= d <= 9 && p >= 1
    requires (n + 1) * (10 * p) <= limit
    ensures (n + 1) * 10 <= limit
    ensures (n * 10 + d + 1) * p <= limit
  {
    MulAssoc(n + 1, 10, p);
    MulMonotone(1, p, (n + 1) * 10);
    MulMonotone(n * 10 + d + 1, (n + 1) * 10, p);
  }

  /** While the digits still to come cannot push the value past 10^19 (which
      is below 2^64), the overflow checks never fire: the scan ends with the
      decimal value, or with a syntax error at the first non-digit. */
  lemma {:induction false} ScanShort(s: string, n: int)
    requires n >= 0
    requires (n + 1) * Pow10(|s|) <= Pow10(19)
    ensures AllDigits(s) ==> ScanUint(s, n) == Parsed(Fold(s, n), None)
    ensures !AllDigits(s) ==> ScanUint(s, n) == Parsed(0, Some(ErrSyntax))
    decreases |s|
  {
    if |s| > 0 && IsDigit(s[0]) {
      var d := DigitValue(s[0]);
      var p := Pow10(|s| - 1);
      Pow10Positive(|s| - 1);
      Pow10Values();
      assert Pow10(|s|) == 10 * p;
      StepBound(n, d, p, Pow10(19));
      var n1 := n * 10 + d;
      assert ScanUint(s, n) == ScanUint(s[1..], n1);
      ScanShort(s[1..], n1);
      if !AllDigits(s) {
        var k :| 0 <= k < |s| && !IsDigit(s[k]);
        assert !IsDigit(s[1..][k - 1]);
      }
    }
  }

  /** The fast path and the general path agree on every input of fewer than
      19 runes, so Atoi is ParseInt. */
  lemma AtoiFastPathAgrees(s: string)
    requires 0 < |s| < 19
    ensures FastAtoi(s) == ParseInt(s)
  {
    var body := if s[0] == '+' || s[0] == '-' then s[1..] else s;
    if body != "" {
      Pow10Monotone(|body|, 18);
      Pow10Values();
      ScanShort(body, 0);
      if AllDigits(body) {
        FoldBound(body, 0);
      }
    }
  }

  /** strconv.Itoa for a non-negative value. */
  function Decimal(k: nat): (r: string)
    ensures AllDigits(r) && 1 <= |r|
  {
    if k < 10 then ['0' + k as char]
    else Decimal(k / 10) + ['0' + (k % 10) as char]
  }

  /** strconv.Itoa. */
  function Itoa(n: int): string {
    if n < 0 then "-" + Decimal(-n) else Decimal(n)
  }

  lemma {:induction false} FoldAppend(s: string, c: char, n: int)
    requires AllDigits(s) && IsDigit(c)
    ensures AllDigits(s + [c])
    ensures Fold(s + [c], n) == Fold(s, n) * 10 + DigitValue(c)
    decreases |s|
  {
    if |s| > 0 {
      assert (s + [c])[1..] == s[1..] + [c];
      FoldAppend(s[1..], c, n * 10 + DigitValue(s[0]));
    }
  }

  lemma {:induction false} DecimalValue(k: nat)
    ensures Fold(Decimal(k), 0) == k
    ensures k < Pow10(|Decimal(k)|)
    ensures |Decimal(k)| == 1 || Pow10(|Decimal(k)| - 1) <= k
    decreases k
  {
    if k >= 10 {
      DecimalValue(k / 10);
      FoldAppend(Decimal(k / 10), '0' + (k % 10) as char, 0);
    }
  }

  /** Every value up to 2^63 is read back by ParseUint from its decimal form. */
  lemma DecimalParses(k: nat)
    requires k <= MaxInt64 + 1
    ensures ParseUint(Decimal(k)) == Parsed(k, None)
  {
    var body := Decimal(k);
    DecimalValue(k);
    DecimalShort(k);
    Pow10Monotone(|body|, 19);
    assert Pow10(|body|) <= Pow10(19);
    assert (0 + 1) * Pow10(|body|) == Pow10(|body|);
    ScanShort(body, 0);
  }

  /** Values below 10^19 have at most 19 digits. */
  lemma DecimalShort(k: nat)
    requires k <= MaxInt64 + 1
    ensures |Decimal(k)| <= 19
  {
    DecimalValue(k);
    Pow10Values();
    Pow10Monotone(19, |Decimal(k)| - 1);
  }

  /** Atoi reads back what Itoa writes, for every int64. */
  lemma AtoiItoa(n: int)
    requires MinInt64 <= n <= MaxInt64
    ensures Atoi(Itoa(n)) == Parsed(n, None)
  {
    var s := Itoa(n);
    if n < 0 {
      DecimalParses(-n);
      assert s[1..] == Decimal(-n);
    } else {
      DecimalParses(n);
      assert s[0] != '-' && s[0] != '+';
    }
  }
}

=== FILE: go_strings.dfy ===
/** The parts of Go's `strings` and `unicode` packages the core relies on,
    over strings of runes. The separators used by the core (' ', '.', '\n',
    '&', '=', '?') are single runes, so separators are modelled as `char`. */
module GoStrings {

  /** unicode.IsSpace: the Latin-1 spaces plus the other runes with the
      Unicode White_Space property. */
  predicate IsSpace(c: char) {
    || c == ' ' || c == '\t' || c == '\n' || c == '\U{000B}' || c == '\U{000C}' || c == '\r'
    || c == '\U{0085}' || c == '\U{00A0}' || c == '\U{1680}'
    || ('\U{2000}' <= c <= '\U{200A}')
    || c == '\U{2028}' || c == '\U{2029}' || c == '\U{202F}' || c == '\U{205F}' || c == '\U{3000}'
  }

  /** Every rune of s[i..j] is a space. */
  predicate SpaceBetween(s: string, i: nat, j: nat)
    requires i <= j <= |s|
  {
    forall k :: i <= k < j ==> IsSpace(s[k])
  }

  /** Neither the first nor the last rune is a space. */
  predicate Trimmed(s: string) {
    s == [] || (!IsSpace(s[0]) && !IsSpace(s[|s| - 1]))
  }

  /** strings.Index for a one-rune separator: the first position of `c`, or -1. */
  function Index(s: string, c: char): (i: int)
    ensures -1 <= i < |s|
    ensures i == -1 <==> c !in s
    ensures 0 <= i ==> s[i] == c && c !in s[..i]
  {
    if |s| == 0 then -1
    else if s[0] == c then 0
    else
      var j := Index(s[1..], c);
      assert s[1..][..if j < 0 then 0 else j] == s[1..1 + if j < 0 then 0 else j];
      if j < 0 then -1 else j + 1
  }

  /** strings.Join with a one-rune separator. */
  function Join(parts: seq<string>, sep: char): string
    decreases |parts|
  {
    if |parts| == 0 then ""
    else if |parts| == 1 then parts[0]
    else parts[0] + [sep] + Join(parts[1..], sep)
  }

  /** strings.Split with a one-rune separator: the pieces between every
      occurrence of `sep`. Joining them back gives the input, and no piece
      holds the separator. */
  function Split(s: string, sep: char): (parts: seq<string>)
    ensures |parts| >= 1
    ensures Join(parts, sep) == s
    ensures forall i :: 0 <= i < |parts| ==> sep !in parts[i]
    decreases |s|
  {
    var m := Index(s, sep);
    if m < 0 then [s]
    else
      var rest := Split(s[m + 1..], sep);
      assert ([s[..m]] + rest)[1..] == rest;
      assert s == s[..m] + [sep] + s[m + 1..];
      [s[..m]] + rest
  }

  lemma IndexAfterPrefix(a: string, sep: char, b: string)
    requires sep !in a
    ensures Index(a + [sep] + b, sep) == |a|
  {
    var s := a + [sep] + b;
    assert s[|a|] == sep;
    assert forall k :: 0 <= k < |a| ==> s[k] == a[k];
    assert s[..|a| + 1][|a|] == sep;
  }

  lemma JoinThree(a: string, b: string, c: string, sep: char)
    ensures Join([a, b, c], sep) == a + [sep] + b + [sep] + c
  {
    assert [a, b, c][1..] == [b, c];
    assert [b, c][1..] == [c];
    assert Join([b, c], sep) == b + [sep] + c;
    assert Join([a, b, c], sep) == a + [sep] + (b + [sep] + c);
  }

  /** Split undoes Join when no piece contains the separator. */
  lemma {:induction false} SplitJoin(parts: seq<string>, sep: char)
    requires |parts| >= 1
    requires forall i :: 0 <= i < |parts| ==> sep !in parts[i]
    ensures Split(Join(parts, sep), sep) == parts
    decreases |parts|
  {
    if |parts| > 1 {
      var tail := Join(parts[1..], sep);
      IndexAfterPrefix(parts[0], sep, tail);
      var s := parts[0] + [sep] + tail;
      assert s[..|parts[0]|] == parts[0];
      assert s[|parts[0]| + 1..] == tail;
      SplitJoin(parts[1..], sep);
    }
  }

  /** strings.SplitN(s, sep, 2): the text before the first separator and,
      when there is one, everything after it. Never empty. */
  function SplitN2(s: string, sep: char): (parts: seq<string>)
    ensures 1 <= |parts| <= 2
    ensures |parts| == 1 <==> sep !in s
    ensures |parts| == 1 ==> parts[0] == s
    ensures |parts| == 2 ==> s == parts[0] + [sep] + parts[1] && sep !in parts[0]
  {
    var m := Index(s, sep);
    if m < 0 then [s]
    else
      assert s == s[..m] + [sep] + s[m + 1..];
      [s[..m], s[m + 1..]]
  }

  /** SplitN2 cuts at the first separator, whatever follows it. */
  lemma SplitN2Of(a: string, sep: char, b: string)
    requires sep !in a
    ensures SplitN2(a + [sep] + b, sep) == [a, b]
  {
    var s := a + [sep] + b;
    IndexAfterPrefix(a, sep, b);
    assert s[..|a|] == a;
    assert s[|a| + 1..] == b;
  }

  predicate HasPrefix(s: string, prefix: string) {
    |prefix| <= |s| && s[..|prefix|] == prefix
  }

  /** strings.TrimPrefix: drops one leading copy of `prefix`, if present. */
  function TrimPrefix(s: string, prefix: string): (r: string)
    ensures HasPrefix(s, prefix) ==> prefix + r == s
    ensures !HasPrefix(s, prefix) ==> r == s
  {
    if HasPrefix(s, prefix) then
      assert s == s[..|prefix|] + s[|prefix|..];
      s[|prefix|..]
    else s
  }

  /** The first index at or after `i` that does not hold a space (|s| if
      there is none). */
  function SkipSpaces(s: string, i: nat): (n: nat)
    requires i <= |s|
    ensures i <= n <= |s|
    ensures SpaceBetween(s, i, n)
    ensures n == |s| || !IsSpace(s[n])
    decreases |s| - i
  {
    if i < |s| && IsSpace(s[i]) then SkipSpaces(s, i + 1) else i
  }

  /** Walking left from `j`, but not past `lo`: the end of s[lo..j] once its
      trailing spaces are dropped. */
  function BackSpaces(s: string, lo: nat, j: nat): (n: nat)
    requires lo <= j <= |s|
    ensures lo <= n <= j
    ensures SpaceBetween(s, n, j)
    ensures n == lo || !IsSpace(s[n - 1])
  {
    if j > lo && IsSpace(s[j - 1]) then BackSpaces(s, lo, j - 1) else j
  }

  /** `r` is `s` with a run of space runes removed from each end, and no
      space left at either end. */
  predicate Strips(s: string, r: string) {
    && Trimmed(r)
    && exists lead :: 0 <= lead <= |s| - |r| && r == s[lead..lead + |r|]
         && SpaceBetween(s, 0, lead) && SpaceBetween(s, lead + |r|, |s|)
  }

  /** strings.TrimSpace: skip the leading spaces, then walk back over the
      trailing ones without crossing the start. */
  function TrimSpace(s: string): (r: string)
    ensures Strips(s, r)
  {
    var start := SkipSpaces(s, 0);
    var stop := BackSpaces(s, start, |s|);
    var r := s[start..stop];
    assert r == [] || (r[0] == s[start] && r[|r| - 1] == s[stop - 1]);
    assert r == s[start..start + |r|];
    r
  }

  /** Whatever TrimSpace keeps was in its input. */
  lemma TrimSpaceKeepsRunes(s: string, c: char)
    requires c in TrimSpace(s)
    ensures c in s
  {
    var start := SkipSpaces(s, 0);
    var r := s[start..BackSpaces(s, start, |s|)];
    assert TrimSpace(s) == r;
    var k :| 0 <= k < |r| && r[k] == c;
    assert s[start + k] == c;
  }

  /** A non-space at `a` bounds every all-space prefix s[..b]. */
  lemma NonSpaceAfterPrefix(s: string, a: nat, b: nat)
    requires a < |s| && !IsSpace(s[a])
    requires b <= |s| && SpaceBetween(s, 0, b)
    ensures b <= a
  {
    var c := s[a];
    assert a < b ==> IsSpace(c);
  }

  /** A non-space just before `e` bounds every all-space suffix s[f..]. */
  lemma NonSpaceBeforeSuffix(s: string, e: nat, f: nat)
    requires 0 < e <= |s| && !IsSpace(s[e - 1])
    requires f <= |s| && SpaceBetween(s, f, |s|)
    ensures e <= f
  {
    var c := s[e - 1];
    assert f < e ==> IsSpace(c);
  }

  lemma {:induction false} SkipAllSpaces(s: string, i: nat)
    requires i <= |s| && SpaceBetween(s, i, |s|)
    ensures SkipSpaces(s, i) == |s|
    decreases |s| - i
  {
    if i < |s| {
      SkipAllSpaces(s, i + 1);
    }
  }

  /** Around a non-empty stripped part s[a..e], the scans stop exactly at
      its ends. */
  lemma ScansFindPart(s: string, a: nat, e: nat)
    requires a < e <= |s|
    requires !IsSpace(s[a]) && !IsSpace(s[e - 1])
    requires SpaceBetween(s, 0, a) && SpaceBetween(s, e, |s|)
    ensures SkipSpaces(s, 0) == a
    ensures BackSpaces(s, a, |s|) == e
  {
    var start := SkipSpaces(s, 0);
    NonSpaceAfterPrefix(s, a, start);
    NonSpaceAfterPrefix(s, start, a);
    var stop := BackSpaces(s, a, |s|);
    NonSpaceBeforeSuffix(s, e, stop);
    NonSpaceBeforeSuffix(s, stop, e);
  }

  /** The converse of TrimSpace's contract: the only string that strips
      `s` is TrimSpace(s). */
  lemma OnlyTrimSpaceStrips(s: string, r: string)
    requires Strips(s, r)
    ensures r == TrimSpace(s)
  {
    var a :| 0 <= a <= |s| - |r| && r == s[a..a + |r|]
      && SpaceBetween(s, 0, a) && SpaceBetween(s, a + |r|, |s|);
    if r == [] {
      assert SpaceBetween(s, 0, |s|);
      SkipAllSpaces(s, 0);
    } else {
      assert s[a] == r[0] && s[a + |r| - 1] == r[|r| - 1];
      ScansFindPart(s, a, a + |r|);
    }
  }

  /** A string with no space at either end is left alone. */
  lemma TrimSpaceOfTrimmed(s: string)
    requires Trimmed(s)
    ensures TrimSpace(s) == s
  {
    if s != [] {
      assert SkipSpaces(s, 0) == 0;
      assert BackSpaces(s, 0, |s|) == |s|;
    }
    assert s[0..|s|] == s;
  }

  /** TrimSpace is idempotent. */
  lemma TrimSpaceIdempotent(s: string)
    ensures TrimSpace(TrimSpace(s)) == TrimSpace(s)
  {
    TrimSpaceOfTrimmed(TrimSpace(s));
  }
}

=== FILE: http.dfy ===
/** The HTTP status codes the handlers write, named as in net/http. */
module Http {
  const StatusOk: int := 200
  const StatusCreated: int := 201
  const StatusTemporaryRedirect: int := 307
  const StatusBadRequest: int := 400
  const StatusUnauthorized: int := 401
  const StatusNotFound: int := 404
  const StatusUnprocessableEntity: int := 422
  const StatusInternalServerError: int := 500
}

=== FILE: jose_witness.dfy ===
/** A concrete `Jwt.Jose` that meets `Jwt.Sound`, so the assumptions the
    token lemmas rest on can all hold at once. It is not a JWT codec: objects
    are written in a prefix-free tagged form over letters only (natural
    numbers in unary, a number as a ratio of two integers), the signature
    codec is the string form, every secret is its own key block, and the
    "MAC" is the key block itself. */
module JoseWitness {
  import opened Wrappers
  import Jwt

  lemma Base64UrlConcat(a: string, b: string)
    requires Jwt.Base64Url(a) && Jwt.Base64Url(b)
    ensures Jwt.Base64Url(a + b)
  {
    assert forall i :: 0 <= i < |a + b| ==> (a + b)[i] == if i < |a| then a[i] else b[i - |a|];
  }

  /** n in unary: n 'D's, then 'E'. */
  function EncNat(n: nat): string {
    if n == 0 then "E" else "D" + EncNat(n - 1)
  }

  function ParseNat(s: string): (r: Option<(nat, string)>)
    ensures r.Some? ==> |r.value.1| < |s|
  {
    if |s| == 0 then None
    else if s[0] == 'E' then Some((0, s[1..]))
    else if s[0] == 'D' then
      match ParseNat(s[1..])
      case None => None
      case Some((n, rest)) => Some((n + 1, rest))
    else None
  }

  lemma {:induction false} ParseEncNat(n: nat, rest: string)
    ensures ParseNat(EncNat(n) + rest) == Some((n, rest))
  {
    if n > 0 {
      assert EncNat(n) + rest == "D" + (EncNat(n - 1) + rest);
      ParseEncNat(n - 1, rest);
    } else {
      assert EncNat(n) + rest == "E" + rest;
    }
  }

  lemma {:induction false} EncNatAlphabet(n: nat)
    ensures Jwt.Base64Url(EncNat(n))
  {
    if n > 0 {
      EncNatAlphabet(n - 1);
      Base64UrlConcat("D", EncNat(n - 1));
    }
  }

  /** The code points a `char` can hold. */
  predicate ScalarValue(k: nat) {
    k < 0xD800 || 0xE000 <= k < 0x11_0000
  }

  function ParseChar(s: string): (r: Option<(char, string)>)
    ensures r.Some? ==> |r.value.1| < |s|
  {
    match ParseNat(s)
    case None => None
    case Some((k, rest)) => if ScalarValue(k) then Some((k as char, rest)) else None
  }

  /** A string: 'C' and the unary code point for each rune, then 'E'. */
  function EncStr(s: string): string {
    if |s| == 0 then "E" else "C" + EncNat(s[0] as int) + EncStr(s[1..])
  }

  function ParseStr(s: string): (r: Option<(string, string)>)
    ensures r.Some? ==> |r.value.1| < |s|
    decreases |s|
  {
    if |s| == 0 then None
    else if s[0] == 'E' then Some(("", s[1..]))
    else if s[0] == 'C' then
      match ParseChar(s[1..])
      case None => None
      case Some((c, rest)) =>
        match ParseStr(rest)
        case None => None
        case Some((t, rest2)) => Some(([c] + t, rest2))
    else None
  }

  lemma {:induction false} ParseEncStr(s: string, rest: string)
    ensures ParseStr(EncStr(s) + rest) == Some((s, rest))
    decreases |s|
  {
    if |s| > 0 {
      var tail := EncStr(s[1..]) + rest;
      assert EncStr(s) + rest == "C" + (EncNat(s[0] as int) + tail);
      ParseEncNat(s[0] as int, tail);
      ParseEncStr(s[1..], rest);
      assert [s[0]] + s[1..] == s;
    } else {
      assert EncStr(s) + rest == "E" + rest;
    }
  }

  lemma {:induction false} EncStrAlphabet(s: string)
    ensures Jwt.Base64Url(EncStr(s))
    decreases |s|
  {
    if |s| > 0 {
      EncNatAlphabet(s[0] as int);
      EncStrAlphabet(s[1..]);
      Base64UrlConcat("C", EncNat(s[0] as int));
      Base64UrlConcat("C" + EncNat(s[0] as int), EncStr(s[1..]));
    }
  }

  /** An integer: its sign ('P' or 'N'), then its magnitude. */
  function EncInt(i: int): string {
    if i >= 0 then "P" + EncNat(i) else "N" + EncNat(-i)
  }

  function ParseInt(s: string): (r: Option<(int, string)>)
    ensures r.Some? ==> |r.value.1| < |s|
  {
    if |s| == 0 || (s[0] != 'P' && s[0] != 'N') then None
    else match ParseNat(s[1..])
      case None => None
      case Some((n, rest)) =>
        var i: int := if s[0] == 'P' then n else -(n as int);
        Some((i, rest))
  }

  lemma ParseEncInt(i: int, rest: string)
    ensures ParseInt(EncInt(i) + rest) == Some((i, rest))
  {
    if i >= 0 {
      assert EncInt(i) + rest == "P" + (EncNat(i) + rest);
      ParseEncNat(i, rest);
    } else {
      assert EncInt(i) + rest == "N" + (EncNat(-i) + rest);
      ParseEncNat(-i, rest);
    }
  }

  lemma EncIntAlphabet(i: int)
    ensures Jwt.Base64Url(EncInt(i))
  {
    if i >= 0 {
      EncNatAlphabet(i);
      Base64UrlConcat("P", EncNat(i));
    } else {
      EncNatAlphabet(-i);
      Base64UrlConcat("N", EncNat(-i));
    }
  }

  /** One chosen way of writing a rational as p/q. */
  ghost function Ratio(x: real): (pq: (int, int))
    requires Jwt.Rational(x)
    ensures Jwt.IsRatio(x, pq.0, pq.1)
  {
    var p, q :| Jwt.IsRatio(x, p, q); (p, q)
  }

  ghost function EncReal(x: real): string {
    if Jwt.Rational(x) then EncInt(Ratio(x).0) + EncNat(Ratio(x).1) else ""
  }

  function ParseReal(s: string): (r: Option<(real, string)>)
    ensures r.Some? ==> |r.value.1| < |s|
  {
    match ParseInt(s)
    case None => None
    case Some((p, rest)) =>
      match ParseNat(rest)
      case None => None
      case Some((q, rest2)) => if q >= 1 then Some((p as real / q as real, rest2)) else None
  }

  lemma ParseEncReal(x: real, rest: string)
    requires Jwt.Rational(x)
    ensures ParseReal(EncReal(x) + rest) == Some((x, rest))
  {
    var pq := Ratio(x);
    assert pq.1 >= 1;
    assert EncReal(x) + rest == EncInt(pq.0) + (EncNat(pq.1) + rest);
    ParseEncInt(pq.0, EncNat(pq.1) + rest);
    ParseEncNat(pq.1, rest);
  }

  lemma EncRealAlphabet(x: real)
    ensures Jwt.Base64Url(EncReal(x))
  {
    if Jwt.Rational(x) {
      EncIntAlphabet(Ratio(x).0);
      EncNatAlphabet(Ratio(x).1);
      Base64UrlConcat(EncInt(Ratio(x).0), EncNat(Ratio(x).1));
    }
  }

  ghost function EncJson(v: Jwt.Json): string {
    match v
    case Number(n) => "n" + EncReal(n)
    case Text(t) => "t" + EncStr(t)
    case Bool(b) => if b then "T" else "F"
    case Null => "z"
    case Composite => "c"
  }

  function ParseJson(s: string): (r: Option<(Jwt.Json, string)>)
    ensures r.Some? ==> |r.value.1| < |s|
  {
    if |s| == 0 then None
    else if s[0] == 'n' then
      match ParseReal(s[1..])
      case None => None
      case Some((x, rest)) => Some((Jwt.Number(x), rest))
    else if s[0] == 't' then
      match ParseStr(s[1..])
      case None => None
      case Some((t, rest)) => Some((Jwt.Text(t), rest))
    else if s[0] == 'T' then Some((Jwt.Bool(true), s[1..]))
    else if s[0] == 'F' then Some((Jwt.Bool(false), s[1..]))
    else if s[0] == 'z' then Some((Jwt.Null, s[1..]))
    else if s[0] == 'c' then Some((Jwt.Composite, s[1..]))
    else None
  }

  lemma ParseEncJson(v: Jwt.Json, rest: string)
    requires v.Number? ==> Jwt.Rational(v.n)
    ensures ParseJson(EncJson(v) + rest) == Some((v, rest))
  {
    match v
    case Number(n) => ParseEncNumber(n, rest);
    case Text(t) => ParseEncText(t, rest);
    case _ =>
      var s := EncJson(v) + rest;
      assert s[1..] == rest;
  }

  lemma ParseEncNumber(n: real, rest: string)
    requires Jwt.Rational(n)
    ensures ParseJson(EncJson(Jwt.Number(n)) + rest) == Some((Jwt.Number(n), rest))
  {
    var s := EncJson(Jwt.Number(n)) + rest;
    assert s[0] == 'n' && s[1..] == EncReal(n) + rest;
    ParseEncReal(n, rest);
  }

  lemma ParseEncText(t: string, rest: string)
    ensures ParseJson(EncJson(Jwt.Text(t)) + rest) == Some((Jwt.Text(t), rest))
  {
    var s := EncJson(Jwt.Text(t)) + rest;
    assert s[0] == 't' && s[1..] == EncStr(t) + rest;
    ParseEncStr(t, rest);
  }

  lemma EncJsonAlphabet(v: Jwt.Json)
    ensures Jwt.Base64Url(EncJson(v))
  {
    match v
    case Number(n) =>
      EncRealAlphabet(n);
      Base64UrlConcat("n", EncReal(n));
    case Text(t) =>
      EncStrAlphabet(t);
      Base64UrlConcat("t", EncStr(t));
    case _ =>
  }

  /** The key written first: any key of the object, chosen once. */
  ghost function Pick(o: Jwt.Object): (k: string)
    requires |o| > 0
    ensures k in o
  {
    var k :| k in o.Keys; k
  }

  lemma RemoveShrinks(o: Jwt.Object, k: string)
    requires k in o
    ensures |o - {k}| < |o|
  {
    assert (o - {k}).Keys + {k} == o.Keys;
  }

  /** An object: 'K', key and value for each entry, then 'E'. */
  ghost function EncObj(o: Jwt.Object): string
    decreases |o|
  {
    if |o| == 0 then "E"
    else
      var k := Pick(o);
      RemoveShrinks(o, k);
      "K" + EncStr(k) + EncJson(o[k]) + EncObj(o - {k})
  }

  function ParseObj(s: string): (r: Option<(Jwt.Object, string)>)
    ensures r.Some? ==> |r.value.1| < |s|
    decreases |s|
  {
    if |s| == 0 then None
    else if s[0] == 'E' then Some((map[], s[1..]))
    else if s[0] == 'K' then
      match ParseStr(s[1..])
      case None => None
      case Some((k, rest)) =>
        match ParseJson(rest)
        case None => None
        case Some((v, rest2)) =>
          match ParseObj(rest2)
          case None => None
          case Some((m, rest3)) => Some((m[k := v], rest3))
    else None
  }

  lemma {:induction false} ParseEncObj(o: Jwt.Object, rest: string)
    requires Jwt.Encodable(o)
    ensures ParseObj(EncObj(o) + rest) == Some((o, rest))
    decreases |o|
  {
    if |o| == 0 {
      assert o == map[];
      assert EncObj(o) + rest == "E" + rest;
    } else {
      var k := Pick(o);
      var sub := o - {k};
      RemoveShrinks(o, k);
      var afterValue := EncObj(sub) + rest;
      var afterKey := EncJson(o[k]) + afterValue;
      var s := EncEntryThen(o, rest);
      ParseEncStr(k, afterKey);
      EncodableRemove(o, k);
      ParseEncJson(o[k], afterValue);
      ParseEncObj(sub, rest);
      ParseObjEntry(s, k, o[k], sub, afterKey, afterValue, rest);
      MapRestore(o, k);
    }
  }

  /** A non-empty object's encoding followed by `rest`, regrouped as the
      first entry's tag and key in front of the value and the remainder. */
  lemma EncEntryThen(o: Jwt.Object, rest: string) returns (s: string)
    requires |o| > 0
    ensures EncObj(o) + rest == s
    ensures |s| > 0 && s[0] == 'K'
    ensures s[1..] == EncStr(Pick(o)) + (EncJson(o[Pick(o)]) + (EncObj(o - {Pick(o)}) + rest))
  {
    var k := Pick(o);
    RemoveShrinks(o, k);
    var a, b, c := EncStr(k), EncJson(o[k]), EncObj(o - {k});
    assert EncObj(o) == "K" + a + b + c;
    s := Regroup('K', a, b, c, rest);
  }

  lemma Regroup(t: char, a: string, b: string, c: string, rest: string) returns (s: string)
    ensures [t] + a + b + c + rest == s
    ensures |s| > 0 && s[0] == t && s[1..] == a + (b + (c + rest))
  {
    s := [t] + (a + (b + (c + rest)));
    assert s[1..] == a + (b + (c + rest));
  }

  lemma MapRestore(o: Jwt.Object, k: string)
    requires k in o
    ensures (o - {k})[k := o[k]] == o
  {
  }

  /** One entry read off the front of an object. */
  lemma ParseObjEntry(s: string, k: string, v: Jwt.Json, m: Jwt.Object, afterKey: string, afterValue: string,
                      rest: string)
    requires |s| > 0 && s[0] == 'K'
    requires ParseStr(s[1..]) == Some((k, afterKey))
    requires ParseJson(afterKey) == Some((v, afterValue))
    requires ParseObj(afterValue) == Some((m, rest))
    ensures ParseObj(s) == Some((m[k := v], rest))
  {
  }

  lemma EncodableRemove(o: Jwt.Object, k: string)
    requires Jwt.Encodable(o) && k in o
    ensures Jwt.Encodable(o - {k})
    ensures o[k].Number? ==> Jwt.Rational(o[k].n)
  {
  }

  lemma {:induction false} EncObjAlphabet(o: Jwt.Object)
    ensures Jwt.Base64Url(EncObj(o))
    decreases |o|
  {
    if |o| > 0 {
      var k := Pick(o);
      RemoveShrinks(o, k);
      EncStrAlphabet(k);
      EncJsonAlphabet(o[k]);
      EncObjAlphabet(o - {k});
      Base64UrlConcat("K", EncStr(k));
      Base64UrlConcat("K" + EncStr(k), EncJson(o[k]));
      Base64UrlConcat("K" + EncStr(k) + EncJson(o[k]), EncObj(o - {k}));
    }
  }

  /** A whole segment: one object and nothing after it. */
  function DecObj(s: string): Option<Jwt.Object> {
    match ParseObj(s)
    case Some((o, rest)) => if rest == [] then Some(o) else None
    case None => None
  }

  function DecStr(s: string): Option<string> {
    match ParseStr(s)
    case Some((t, rest)) => if rest == [] then Some(t) else None
    case None => None
  }

  ghost function Witness(): Jwt.Jose {
    Jwt.Jose(
      o => EncObj(o),
      s => DecObj(s),
      b => EncStr(b),
      s => DecStr(s),
      (bits, secret) => secret,
      (bits, block, input) => block)
  }

  /** The assumptions on the library's codecs and MAC are consistent. */
  lemma WitnessIsSound()
    ensures Jwt.Sound(Witness())
  {
    var j := Witness();
    forall o | Jwt.Encodable(o)
      ensures j.decode(j.encode(o)) == Some(o)
    {
      ParseEncObj(o, "");
      assert EncObj(o) + "" == EncObj(o);
    }
    forall o
      ensures Jwt.Base64Url(j.encode(o))
    {
      EncObjAlphabet(o);
    }
    forall b
      ensures j.sigDecode(j.sigEncode(b)) == Some(b)
    {
      ParseEncStr(b, "");
      assert EncStr(b) + "" == EncStr(b);
    }
    forall b
      ensures Jwt.Base64Url(j.sigEncode(b))
    {
      EncStrAlphabet(b);
    }
  }
}

=== FILE: jwt.dfy ===
/** Session tokens (internal/auth/jwt.go) over golang-jwt v5, with the
    cryptography left abstract. A token is the compact form
    `header.claims.signature`: three segments joined by '.'. The JSON and
    base64url codecs and HMAC-SHA2 are the library's; they enter the model as
    the fields of a `Jose` value, and `Sound` states what the model assumes
    of them (JoseWitness exhibits a `Jose` that meets it). Segment count,
    algorithm lookup, the key function's HMAC check, the decoding of the
    signature segment before the byte comparison, the exp/nbf rules and the
    user_id extraction are modelled as the code and the library do them.
    Clock values are whole Unix seconds. */
module Jwt {
  import opened Wrappers
  import GoStrings

  /** Token lifetime: 24 hours, in seconds. */
  const Lifetime: int := 24 * 60 * 60

  /** A decoded JSON value; golang-jwt decodes every JSON number to float64. */
  datatype Json = Number(n: real) | Text(s: string) | Bool(b: bool) | Null | Composite

  /** A decoded JSON object: the header, or jwt.MapClaims. */
  type Object = map<string, Json>

  /** Families of the signing methods the library registers. */
  datatype Method = Hmac(bits: int) | Rsa(bits: int) | RsaPss(bits: int) | Ecdsa(bits: int) | EdDsa | Unsecured

  /** The library's codecs and MAC, with byte strings written one char per
      byte:
      - `encode` is base64url(JSON(object)) and `decode` its partial inverse
        (None for bad base64 or bad JSON);
      - `sigEncode` is the unpadded base64url encoding of the signature
        bytes, and `sigDecode` the library's lenient decoder of the third
        segment (it ignores, for example, the unused low bits of the last
        character), None when the segment does not decode;
      - `keyBlock(bits, secret)` is the key HMAC actually uses: the secret,
        hashed first when it is longer than the hash's block, padded with
        zero bytes to the block size. Secrets with the same block are the
        same HMAC key (a secret and the same secret followed by a zero
        byte, say);
      - `mac(bits, block, input)` is HMAC-SHA-bits under that key block. */
  datatype Jose = Jose(
    encode: Object -> string,
    decode: string -> Option<Object>,
    sigEncode: string -> string,
    sigDecode: string -> Option<string>,
    keyBlock: (int, string) -> string,
    mac: (int, string, string) -> string)

  predicate IsBase64UrlChar(c: char) {
    ('A' <= c <= 'Z') || ('a' <= c <= 'z') || ('0' <= c <= '9') || c == '-' || c == '_'
  }

  predicate Base64Url(s: string) {
    forall i :: 0 <= i < |s| ==> IsBase64UrlChar(s[i])
  }

  /** `x` is the ratio p/q of two integers. */
  predicate IsRatio(x: real, p: int, q: int) {
    q >= 1 && x == p as real / q as real
  }

  /** Every float64, and every number a JSON encoder writes, is rational. */
  ghost predicate Rational(x: real) {
    exists p, q :: IsRatio(x, p, q)
  }

  /** An object the JSON encoder can write exactly: its numbers are rational. */
  ghost predicate Encodable(o: Object) {
    forall k :: k in o && o[k].Number? ==> Rational(o[k].n)
  }

  /** What the model assumes of the library: decoding undoes encoding for
      every object JSON can carry, segments use the base64url alphabet (so
      they hold no '.' and no space), and HMAC tells key blocks apart — two
      different key blocks never give the same MAC of the same input
      (collision resistance, idealised). */
  ghost predicate Sound(j: Jose) {
    && (forall o :: Encodable(o) ==> j.decode(j.encode(o)) == Some(o))
    && (forall o :: Base64Url(j.encode(o)))
    && (forall b :: j.sigDecode(j.sigEncode(b)) == Some(b))
    && (forall b :: Base64Url(j.sigEncode(b)))
    && (forall bits, k1, k2, x :: j.mac(bits, k1, x) == j.mac(bits, k2, x) ==> k1 == k2)
  }

  lemma Base64UrlHasNoSeparators(s: string)
    requires Base64Url(s)
    ensures '.' !in s && ' ' !in s
  {
  }

  lemma IntegerRational(i: int)
    ensures Rational(i as real)
  {
    assert IsRatio(i as real, i, 1);
  }

  /** The signature bytes HMAC-SHA-bits gives for `input` under `secret`. */
  function Signature(j: Jose, bits: int, secret: string, input: string): string {
    j.mac(bits, j.keyBlock(bits, secret), input)
  }

  /** jwt.GetSigningMethod: the algorithm names the library registers. */
  function SigningMethod(alg: string): Option<Method> {
    if alg == "HS256" then Some(Hmac(256))
    else if alg == "HS384" then Some(Hmac(384))
    else if alg == "HS512" then Some(Hmac(512))
    else if alg == "RS256" then Some(Rsa(256))
    else if alg == "RS384" then Some(Rsa(384))
    else if alg == "RS512" then Some(Rsa(512))
    else if alg == "PS256" then Some(RsaPss(256))
    else if alg == "PS384" then Some(RsaPss(384))
    else if alg == "PS512" then Some(RsaPss(512))
    else if alg == "ES256" then Some(Ecdsa(256))
    else if alg == "ES384" then Some(Ecdsa(384))
    else if alg == "ES512" then Some(Ecdsa(512))
    else if alg == "EdDSA" then Some(EdDsa)
    else if alg == "none" then Some(Unsecured)
    else None
  }

  /** Go's float64-to-int conversion truncates toward zero. */
  function TruncateToInt(x: real): int {
    if x >= 0.0 then x.Floor else -((-x).Floor)
  }

  /** A NumericDate claim as MapClaims reads it: absent, or present as a
      non-zero number (truncated to whole seconds), or of the wrong type.
      A numeric 0 counts as absent. */
  datatype DateClaim = NoDate | Date(seconds: int) | BadType

  function DateClaimOf(claims: Object, key: string): DateClaim {
    if key !in claims then NoDate
    else match claims[key]
      case Number(n) => if n == 0.0 then NoDate else Date(n.Floor)
      case _ => BadType
  }

  /** The default validator: `exp` must lie strictly after now, `nbf` at or
      before now; either may be absent; a non-numeric one is invalid. */
  predicate Timely(claims: Object, now: int) {
    && (match DateClaimOf(claims, "exp")
        case NoDate => true
        case Date(exp) => now < exp
        case BadType => false)
    && (match DateClaimOf(claims, "nbf")
        case NoDate => true
        case Date(nbf) => now >= nbf
        case BadType => false)
  }

  datatype JwtError =
    | Malformed          // wrong segment count, or a segment that does not decode
    | Unverifiable       // alg missing, unknown, or rejected by the key function
    | SignatureInvalid
    | InvalidClaims      // expired, not yet valid, or a date claim of the wrong type
    | InvalidUserId      // user_id missing or not a number

  /** ValidateJWT's `(int, error)`. */
  datatype Validation = Validation(userId: int, err: Option<JwtError>)

  function Reject(e: JwtError): Validation {
    Validation(0, Some(e))
  }

  /** The header GenerateJWT writes. */
  function IssuedHeader(): Object {
    map["alg" := Text("HS256"), "typ" := Text("JWT")]
  }

  /** The claims GenerateJWT writes. */
  function IssuedClaims(userId: int, now: int): Object {
    map["user_id" := Number(userId as real), "exp" := Number((now + Lifetime) as real)]
  }

  lemma IssuedObjectsEncodable(userId: int, now: int)
    ensures Encodable(IssuedHeader()) && Encodable(IssuedClaims(userId, now))
  {
    IntegerRational(userId);
    IntegerRational(now + Lifetime);
  }

  /** Before its expiry an issued token's claims pass the time checks. */
  lemma IssuedTimely(userId: int, issuedAt: int, now: int)
    requires now < issuedAt + Lifetime
    ensures Timely(IssuedClaims(userId, issuedAt), now)
  {
    var claims := IssuedClaims(userId, issuedAt);
    assert "nbf" !in claims;
    assert ((issuedAt + Lifetime) as real).Floor == issuedAt + Lifetime;
  }

  /** The text GenerateJWT signs: the two encoded objects joined by '.'. */
  function SigningInput(j: Jose, userId: int, now: int): string {
    j.encode(IssuedHeader()) + "." + j.encode(IssuedClaims(userId, now))
  }

  /** GenerateJWT: an HS256 token whose claims are `user_id` and `exp` = now
      plus 24 hours, signed with the secret. Under the library's codecs it
      has three segments and no space, and it validates at once, under the
      same secret, to the user id it carries. */
  function GenerateJWT(j: Jose, userId: int, secret: string, now: int): (token: string)
    ensures Sound(j) ==> |GoStrings.Split(token, '.')| == 3 && ' ' !in token
    ensures Sound(j) ==> ValidateJWT(j, token, secret, now) == Validation(userId, None)
  {
    var input := SigningInput(j, userId, now);
    var segment := j.sigEncode(Signature(j, 256, secret, input));
    var token := input + "." + segment;
    assert Sound(j) ==> |GoStrings.Split(token, '.')| == 3 && ' ' !in token
                        && ValidateJWT(j, token, secret, now) == Validation(userId, None) by {
      if Sound(j) {
        CompactShape(j, IssuedHeader(), IssuedClaims(userId, now), segment);
        IssuedTokenValidates(j, userId, now, segment, secret, now);
        IssuedTimely(userId, now, now);
      }
    }
    token
  }

  /** ValidateJWT: parse, then the key function (HMAC only), then the
      signature, then the time claims, then `user_id`. Every failure returns
      user id 0. */
  function ValidateJWT(j: Jose, token: string, secret: string, now: int): (r: Validation)
    ensures r.err.Some? ==> r.userId == 0
    ensures |GoStrings.Split(token, '.')| != 3 ==> r == Reject(Malformed)
    ensures r.err.None? ==>
      var parts := GoStrings.Split(token, '.');
      && |parts| == 3
      && j.decode(parts[0]).Some? && j.decode(parts[1]).Some?
      && "alg" in j.decode(parts[0]).value && j.decode(parts[0]).value["alg"].Text?
      && SigningMethod(j.decode(parts[0]).value["alg"].s).Some?
      && SigningMethod(j.decode(parts[0]).value["alg"].s).value.Hmac?
      && j.sigDecode(parts[2])
         == Some(Signature(j, SigningMethod(j.decode(parts[0]).value["alg"].s).value.bits, secret,
                           parts[0] + "." + parts[1]))
      && Timely(j.decode(parts[1]).value, now)
      && "user_id" in j.decode(parts[1]).value
      && j.decode(parts[1]).value["user_id"].Number?
      && r.userId == TruncateToInt(j.decode(parts[1]).value["user_id"].n)
  {
    var parts := GoStrings.Split(token, '.');
    if |parts| != 3 then Reject(Malformed)
    else ValidateSegments(j, parts[0], parts[1], parts[2], secret, now)
  }

  /** Everything after the segment count: decoding, algorithm lookup, the
      key function, the decoding of the signature segment and the byte
      comparison of the signature over `header.claims`, the claims. */
  function ValidateSegments(j: Jose, header: string, claims: string, signature: string, secret: string, now: int)
    : (r: Validation)
    ensures r.err.Some? ==> r.userId == 0
    ensures j.decode(header).None? || j.decode(claims).None? ==> r == Reject(Malformed)
    ensures j.sigDecode(signature).None? ==> r.err.Some?
    ensures r.err.None? ==>
      && j.decode(header).Some? && j.decode(claims).Some?
      && "alg" in j.decode(header).value && j.decode(header).value["alg"].Text?
      && SigningMethod(j.decode(header).value["alg"].s).Some?
      && SigningMethod(j.decode(header).value["alg"].s).value.Hmac?
      && j.sigDecode(signature)
         == Some(Signature(j, SigningMethod(j.decode(header).value["alg"].s).value.bits, secret, header + "." + claims))
      && Timely(j.decode(claims).value, now)
      && "user_id" in j.decode(claims).value
      && j.decode(claims).value["user_id"].Number?
      && r.userId == TruncateToInt(j.decode(claims).value["user_id"].n)
  {
    match (j.decode(header), j.decode(claims))
    case (None, _) => Reject(Malformed)
    case (_, None) => Reject(Malformed)
    case (Some(h), Some(c)) =>
      if "alg" !in h || !h["alg"].Text? then Reject(Unverifiable)
      else match SigningMethod(h["alg"].s)
        case None => Reject(Unverifiable)
        case Some(m) =>
          if !m.Hmac? then Reject(Unverifiable)
          else match j.sigDecode(signature)
            case None => Reject(Malformed)
            case Some(sig) =>
              if sig != Signature(j, m.bits, secret, header + "." + claims) then Reject(SignatureInvalid)
              else if !Timely(c, now) then Reject(InvalidClaims)
              else if "user_id" !in c || !c["user_id"].Number? then Reject(InvalidUserId)
              else Validation(TruncateToInt(c["user_id"].n), None)
  }

  /** A compact token built from two encoded objects and a signature
      segment without '.' splits back into exactly those three segments,
      and holds no space when the segment holds none. */
  lemma CompactShape(j: Jose, header: Object, claims: Object, segment: string)
    requires Sound(j)
    requires Base64Url(segment)
    ensures GoStrings.Split(j.encode(header) + "." + j.encode(claims) + "." + segment, '.')
            == [j.encode(header), j.encode(claims), segment]
    ensures ' ' !in j.encode(header) + "." + j.encode(claims) + "." + segment
  {
    var parts := [j.encode(header), j.encode(claims), segment];
    Base64UrlHasNoSeparators(parts[0]);
    Base64UrlHasNoSeparators(parts[1]);
    Base64UrlHasNoSeparators(segment);
    GoStrings.JoinThree(parts[0], parts[1], parts[2], '.');
    GoStrings.SplitJoin(parts, '.');
  }

  /** Segments under the issued HS256 header, for claims JSON can carry:
      the signature segment must decode, then match, then the claims. */
  lemma Hs256SegmentsValidate(j: Jose, claims: Object, segment: string, secret: string, now: int)
    requires Sound(j)
    requires Encodable(claims)
    ensures var h := j.encode(IssuedHeader());
      var c := j.encode(claims);
      ValidateSegments(j, h, c, segment, secret, now)
      == if j.sigDecode(segment).None? then Reject(Malformed)
         else if j.sigDecode(segment).value != Signature(j, 256, secret, h + "." + c) then Reject(SignatureInvalid)
         else if !Timely(claims, now) then Reject(InvalidClaims)
         else if "user_id" !in claims || !claims["user_id"].Number? then Reject(InvalidUserId)
         else Validation(TruncateToInt(claims["user_id"].n), None)
  {
    var header := IssuedHeader();
    IssuedObjectsEncodable(0, 0);
    assert j.decode(j.encode(header)) == Some(header);
    assert j.decode(j.encode(claims)) == Some(claims);
    assert "alg" in header && header["alg"] == Text("HS256");
    assert SigningMethod("HS256") == Some(Hmac(256));
  }

  /** The issued header and claims, followed by any signature segment in
      the base64url alphabet: the outcome depends only on the bytes the
      segment decodes to. */
  lemma IssuedTokenValidates(j: Jose, userId: int, issuedAt: int, segment: string, verifier: string, now: int)
    requires Sound(j)
    requires Base64Url(segment)
    ensures var h := j.encode(IssuedHeader());
      var c := j.encode(IssuedClaims(userId, issuedAt));
      ValidateJWT(j, h + "." + c + "." + segment, verifier, now)
      == if j.sigDecode(segment).None? then Reject(Malformed)
         else if j.sigDecode(segment).value != Signature(j, 256, verifier, h + "." + c) then Reject(SignatureInvalid)
         else if !Timely(IssuedClaims(userId, issuedAt), now) then Reject(InvalidClaims)
         else Validation(userId, None)
  {
    var claims := IssuedClaims(userId, issuedAt);
    var h := j.encode(IssuedHeader());
    var c := j.encode(claims);
    CompactShape(j, IssuedHeader(), claims, segment);
    CompactValidates(j, h, c, segment, verifier, now);
    IssuedObjectsEncodable(userId, issuedAt);
    Hs256SegmentsValidate(j, claims, segment, verifier, now);
    IssuedUserId(userId, issuedAt);
  }

  /** A token that splits into the three given segments is validated on them. */
  lemma CompactValidates(j: Jose, h: string, c: string, segment: string, secret: string, now: int)
    requires GoStrings.Split(h + "." + c + "." + segment, '.') == [h, c, segment]
    ensures ValidateJWT(j, h + "." + c + "." + segment, secret, now) == ValidateSegments(j, h, c, segment, secret, now)
  {
  }

  /** The issued user_id claim reads back as the user id. */
  lemma IssuedUserId(userId: int, issuedAt: int)
    ensures var claims := IssuedClaims(userId, issuedAt);
      "user_id" in claims && claims["user_id"].Number? && TruncateToInt(claims["user_id"].n) == userId
  {
    assert TruncateToInt(userId as real) == userId;
  }

  /** The segments of an issued token. */
  lemma IssuedTokenShape(j: Jose, userId: int, secret: string, now: int)
    requires Sound(j)
    ensures var input := SigningInput(j, userId, now);
      GoStrings.Split(GenerateJWT(j, userId, secret, now), '.')
      == [j.encode(IssuedHeader()), j.encode(IssuedClaims(userId, now)),
          j.sigEncode(Signature(j, 256, secret, input))]
  {
    var input := SigningInput(j, userId, now);
    CompactShape(j, IssuedHeader(), IssuedClaims(userId, now), j.sigEncode(Signature(j, 256, secret, input)));
  }

  /** An issued token carries `user_id` = the user id and `exp` = issue time
      plus 24 hours, names HS256, and its signature segment decodes to the
      HS256 MAC of the first two segments under the secret. */
  lemma IssuedTokenClaims(j: Jose, userId: int, secret: string, now: int)
    requires Sound(j)
    ensures var parts := GoStrings.Split(GenerateJWT(j, userId, secret, now), '.');
      && |parts| == 3
      && j.decode(parts[0]) == Some(IssuedHeader())
      && j.decode(parts[1]) == Some(IssuedClaims(userId, now))
      && j.sigDecode(parts[2]) == Some(Signature(j, 256, secret, parts[0] + "." + parts[1]))
      && IssuedHeader()["alg"] == Text("HS256")
      && IssuedClaims(userId, now)["user_id"] == Number(userId as real)
      && IssuedClaims(userId, now)["exp"] == Number((now + Lifetime) as real)
  {
    IssuedTokenShape(j, userId, secret, now);
    IssuedObjectsEncodable(userId, now);
  }

  /** What ValidateJWT makes of an issued token, under any secret and clock. */
  lemma ValidateIssued(j: Jose, userId: int, signer: string, issuedAt: int, verifier: string, now: int)
    requires Sound(j)
    ensures var r := ValidateJWT(j, GenerateJWT(j, userId, signer, issuedAt), verifier, now);
      var input := SigningInput(j, userId, issuedAt);
      r == if Signature(j, 256, signer, input) != Signature(j, 256, verifier, input) then Reject(SignatureInvalid)
           else if !Timely(IssuedClaims(userId, issuedAt), now) then Reject(InvalidClaims)
           else Validation(userId, None)
  {
    var input := SigningInput(j, userId, issuedAt);
    var sig := Signature(j, 256, signer, input);
    IssuedTokenValidates(j, userId, issuedAt, j.sigEncode(sig), verifier, now);
  }

  /** Round trip: within its lifetime, an issued token validates under the
      same secret to the user id it was issued for. */
  lemma TokenRoundTrip(j: Jose, userId: int, secret: string, issuedAt: int, now: int)
    requires Sound(j)
    requires now < issuedAt + Lifetime
    ensures ValidateJWT(j, GenerateJWT(j, userId, secret, issuedAt), secret, now) == Validation(userId, None)
  {
    ValidateIssued(j, userId, secret, issuedAt, secret, now);
    IssuedTimely(userId, issuedAt, now);
  }

  /** From the moment it expires, an issued token is rejected with user id 0.
      (An `exp` of exactly 0 would count as absent.) */
  lemma ExpiredTokenRejected(j: Jose, userId: int, secret: string, issuedAt: int, now: int)
    requires Sound(j)
    requires now >= issuedAt + Lifetime && issuedAt + Lifetime != 0
    ensures ValidateJWT(j, GenerateJWT(j, userId, secret, issuedAt), secret, now) == Reject(InvalidClaims)
  {
    ValidateIssued(j, userId, secret, issuedAt, secret, now);
    var claims := IssuedClaims(userId, issuedAt);
    assert DateClaimOf(claims, "exp") == Date(issuedAt + Lifetime);
  }

  /** Key isolation: a token signed with one secret is rejected under any
      secret HMAC does not treat as the same key. */
  lemma WrongSecretRejected(j: Jose, userId: int, signer: string, verifier: string, issuedAt: int, now: int)
    requires Sound(j)
    requires j.keyBlock(256, signer) != j.keyBlock(256, verifier)
    ensures ValidateJWT(j, GenerateJWT(j, userId, signer, issuedAt), verifier, now) == Reject(SignatureInvalid)
  {
    ValidateIssued(j, userId, signer, issuedAt, verifier, now);
  }

  /** The other side of key isolation: a secret with the same HMAC key block
      as the signer's (the signer's secret followed by zero bytes, say)
      accepts the token like the signer's own. */
  lemma EquivalentSecretAccepted(j: Jose, userId: int, signer: string, verifier: string, issuedAt: int, now: int)
    requires Sound(j)
    requires j.keyBlock(256, signer) == j.keyBlock(256, verifier)
    requires now < issuedAt + Lifetime
    ensures ValidateJWT(j, GenerateJWT(j, userId, signer, issuedAt), verifier, now) == Validation(userId, None)
  {
    ValidateIssued(j, userId, signer, issuedAt, verifier, now);
    IssuedTimely(userId, issuedAt, now);
  }

  /** The signature segment is compared by the bytes it decodes to, not as
      text: any other base64url spelling of the same signature bytes (the
      library's decoder ignores the unused low bits of the last character)
      validates like the issued one. */
  lemma RespelledSignatureAccepted(j: Jose, userId: int, secret: string, issuedAt: int, now: int, segment: string)
    requires Sound(j)
    requires Base64Url(segment)
    requires j.sigDecode(segment) == Some(Signature(j, 256, secret, SigningInput(j, userId, issuedAt)))
    requires now < issuedAt + Lifetime
    ensures ValidateJWT(j, SigningInput(j, userId, issuedAt) + "." + segment, secret, now) == Validation(userId, None)
  {
    IssuedTokenValidates(j, userId, issuedAt, segment, secret, now);
    IssuedTimely(userId, issuedAt, now);
  }

  /** A well-formed token whose header names a registered algorithm outside
      the HMAC family (including "none") is rejected by the key function,
      the same way under every secret and whatever its signature: no key is
      ever handed out for it. */
  lemma NonHmacRejected(j: Jose, header: Object, claims: Object, segment: string, secret: string, now: int)
    requires Sound(j)
    requires Encodable(header) && Encodable(claims)
    requires Base64Url(segment)
    requires "alg" in header && header["alg"].Text?
    requires SigningMethod(header["alg"].s).Some? && !SigningMethod(header["alg"].s).value.Hmac?
    ensures ValidateJWT(j, j.encode(header) + "." + j.encode(claims) + "." + segment, secret, now)
            == Reject(Unverifiable)
  {
    CompactShape(j, header, claims, segment);
  }

  /** A correctly signed, timely token without a numeric `user_id` claim is
      rejected with user id 0. */
  lemma MissingUserIdRejected(j: Jose, claims: Object, secret: string, now: int)
    requires Sound(j)
    requires Encodable(claims)
    requires Timely(claims, now)
    requires "user_id" !in claims || !claims["user_id"].Number?
    ensures var input := j.encode(IssuedHeader()) + "." + j.encode(claims);
      ValidateJWT(j, input + "." + j.sigEncode(Signature(j, 256, secret, input)), secret, now) == Reject(InvalidUserId)
  {
    var h := j.encode(IssuedHeader());
    var c := j.encode(claims);
    var segment := j.sigEncode(Signature(j, 256, secret, h + "." + c));
    CompactShape(j, IssuedHeader(), claims, segment);
    assert ValidateJWT(j, h + "." + c + "." + segment, secret, now) == ValidateSegments(j, h, c, segment, secret, now);
    Hs256SegmentsValidate(j, claims, segment, secret, now);
  }

  /** The empty string and a four-segment string are malformed. */
  lemma MalformedTokensRejected(j: Jose, secret: string, now: int)
    ensures ValidateJWT(j, "", secret, now) == Reject(Malformed)
    ensures ValidateJWT(j, "not.a.valid.token", secret, now) == Reject(Malformed)
  {
    EmptyTokenMalformed(j, secret, now);
    FourSegmentsMalformed(j, secret, now);
  }

  lemma EmptyTokenMalformed(j: Jose, secret: string, now: int)
    ensures ValidateJWT(j, "", secret, now) == Reject(Malformed)
  {
    assert GoStrings.Split("", '.') == [""];
  }

  lemma FourSegmentsMalformed(j: Jose, secret: string, now: int)
    ensures ValidateJWT(j, "not.a.valid.token", secret, now) == Reject(Malformed)
  {
    var four := ["not", "a", "valid", "token"];
    assert GoStrings.Join(four, '.') == "not.a.valid.token";
    GoStrings.SplitJoin(four, '.');
  }
}

=== FILE: middleware.dfy ===
/** The bearer gate of server/internal/middleware/auth.go. The request is
    reduced to the value of its Authorization header ("" when absent), and
    the wrapped handler to the user id it would find in the request context. */
module Middleware {
  import opened Wrappers
  import GoStrings
  import Jwt
  import opened Http

  /** Either the gate answered 401 itself, or it passed the request on with
      the user id stored in the context. */
  datatype GateOutcome = Rejected(status: int) | Forwarded(userId: int)

  /** The token of a `Bearer <token>` header: the header must split on single
      spaces into exactly two pieces, the first being exactly "Bearer". */
  function BearerToken(header: string): (r: Option<string>)
    ensures r.Some? ==> header == "Bearer " + r.value && ' ' !in r.value
  {
    var parts := GoStrings.Split(header, ' ');
    if |parts| != 2 || parts[0] != "Bearer" then None
    else
      assert GoStrings.Join(parts, ' ') == parts[0] + [' '] + parts[1] by {
        assert parts[1..] == [parts[1]];
      }
      Some(parts[1])
  }

  /** Every header of the form `Bearer <token>` with a space-free token is
      accepted, so BearerToken recognises exactly those headers. */
  lemma BearerTokenComplete(token: string)
    requires ' ' !in token
    ensures BearerToken("Bearer " + token) == Some(token)
  {
    var parts := ["Bearer", token];
    assert GoStrings.Join(parts, ' ') == "Bearer " + token by {
      assert parts[1..] == [token];
    }
    GoStrings.SplitJoin(parts, ' ');
  }

  /** RequireAuth: 401 for a missing header, for one that is not exactly
      `Bearer <token>`, and for a token ValidateJWT refuses; otherwise the
      request goes on carrying the token's user id. */
  function RequireAuth(j: Jwt.Jose, header: string, secret: string, now: int): (r: GateOutcome)
    ensures r.Rejected? ==> r.status == StatusUnauthorized
    ensures r.Forwarded? <==>
      BearerToken(header).Some? && Jwt.ValidateJWT(j, BearerToken(header).value, secret, now).err.None?
    ensures r.Forwarded? ==> r.userId == Jwt.ValidateJWT(j, BearerToken(header).value, secret, now).userId
  {
    if header == "" then Rejected(StatusUnauthorized)
    else match BearerToken(header)
      case None => Rejected(StatusUnauthorized)
      case Some(token) =>
        var v := Jwt.ValidateJWT(j, token, secret, now);
        if v.err.Some? then Rejected(StatusUnauthorized) else Forwarded(v.userId)
  }

  /** A token GenerateJWT issued, presented as `Bearer <token>` within 24
      hours under the same secret, lets the request through with the user id
      it was issued for. */
  lemma IssuedTokenPassesGate(j: Jwt.Jose, userId: int, secret: string, issuedAt: int, now: int)
    requires Jwt.Sound(j)
    requires now < issuedAt + Jwt.Lifetime
    ensures RequireAuth(j, "Bearer " + Jwt.GenerateJWT(j, userId, secret, issuedAt), secret, now) == Forwarded(userId)
  {
    var token := Jwt.GenerateJWT(j, userId, secret, issuedAt);
    Jwt.IssuedTokenShape(j, userId, secret, issuedAt);
    BearerTokenComplete(token);
    Jwt.TokenRoundTrip(j, userId, secret, issuedAt, now);
  }

  /** The scheme is matched exactly and the separator is one space: a
      missing header, a bare token, a lower-case scheme and a doubled space
      are refused before the token is looked at. */
  lemma MalformedHeadersRejected(j: Jwt.Jose, token: string, secret: string, now: int)
    requires ' ' !in token
    ensures RequireAuth(j, "", secret, now) == Rejected(StatusUnauthorized)
    ensures RequireAuth(j, "bearer " + token, secret, now) == Rejected(StatusUnauthorized)
    ensures RequireAuth(j, "Bearer  " + token, secret, now) == Rejected(StatusUnauthorized)
    ensures RequireAuth(j, token, secret, now) == Rejected(StatusUnauthorized)
  {
    LowerCaseSchemeRefused(token);
    DoubledSpaceRefused(token);
    BareTokenRefused(token);
  }

  lemma LowerCaseSchemeRefused(token: string)
    requires ' ' !in token
    ensures BearerToken("bearer " + token) == None
  {
    var lower := ["bearer", token];
    assert GoStrings.Join(lower, ' ') == "bearer " + token by {
      assert lower[1..] == [token];
    }
    GoStrings.SplitJoin(lower, ' ');
    assert "bearer"[0] != "Bearer"[0];
  }

  lemma DoubledSpaceRefused(token: string)
    requires ' ' !in token
    ensures BearerToken("Bearer  " + token) == None
  {
    var doubled := ["Bearer", "", token];
    assert GoStrings.Join(doubled, ' ') == "Bearer  " + token by {
      assert doubled[1..] == ["", token];
      assert doubled[1..][1..] == [token];
      assert GoStrings.Join(doubled[1..], ' ') == [' '] + token;
      assert "Bearer  " == "Bearer" + [' '] + [' '];
    }
    GoStrings.SplitJoin(doubled, ' ');
  }

  lemma BareTokenRefused(token: string)
    requires ' ' !in token
    ensures BearerToken(token) == None
  {
    GoStrings.SplitJoin([token], ' ');
  }

  /** `Bearer ` with nothing after it passes the header check and reaches
      ValidateJWT, which refuses the empty token. */
  lemma EmptyBearerRejected(j: Jwt.Jose, secret: string, now: int)
    ensures BearerToken("Bearer ") == Some("")
    ensures RequireAuth(j, "Bearer ", secret, now) == Rejected(StatusUnauthorized)
  {
    BearerTokenComplete("");
    assert "Bearer " + "" == "Bearer ";
    Jwt.EmptyTokenMalformed(j, secret, now);
  }
}

=== FILE: seed.dfy ===
/** parseReadme of cmd/seed/main.go: a challenge's README gives its title
    (the first line, without one leading "# ") and its description
    (everything after the first line break). */
module Seed {
  import GoStrings

  datatype Readme = Readme(title: string, description: string)

  /** The first line with one leading "# " removed, if it has one. */
  function Unheaded(line: string): string {
    GoStrings.TrimPrefix(line, "# ")
  }

  lemma TitleHasNoBreak(line: string)
    requires '\n' !in line
    ensures '\n' !in GoStrings.TrimSpace(Unheaded(line))
  {
    var u := Unheaded(line);
    assert '\n' !in u by {
      if GoStrings.HasPrefix(line, "# ") {
        assert line == "# " + u;
      }
    }
    if c :| c in GoStrings.TrimSpace(u) && c == '\n' {
      GoStrings.TrimSpaceKeepsRunes(u, c);
    }
  }

  /** parseReadme. Only the first line break splits; both parts are stripped
      of surrounding white space; with no line break the description is
      empty. SplitN never returns an empty list, so the source's guard for
      one is dead. */
  function ParseReadme(content: string): (r: Readme)
    ensures GoStrings.Trimmed(r.title) && GoStrings.Trimmed(r.description)
    ensures '\n' !in r.title
    ensures var lines := GoStrings.SplitN2(content, '\n');
      && GoStrings.Strips(Unheaded(lines[0]), r.title)
      && (|lines| == 1 ==> r.description == "")
      && (|lines| == 2 ==> GoStrings.Strips(lines[1], r.description))
  {
    var lines := GoStrings.SplitN2(content, '\n');
    if |lines| == 0 then assert false; Readme("", "")
    else
      var title := GoStrings.TrimSpace(Unheaded(lines[0]));
      TitleHasNoBreak(lines[0]);
      if |lines| > 1 then
        Readme(title, GoStrings.TrimSpace(lines[1]))
      else Readme(title, "")
  }

  /** Round trip: a README written as "# title", a line break and a
      description — which may hold further line breaks — reads back as that
      title and description, when neither has white space at its ends. */
  lemma ReadmeRoundTrip(title: string, description: string)
    requires '\n' !in title
    requires GoStrings.Trimmed(title) && GoStrings.Trimmed(description)
    ensures ParseReadme("# " + title + "\n" + description) == Readme(title, description)
  {
    var first := "# " + title;
    assert '\n' !in first;
    GoStrings.SplitN2Of(first, '\n', description);
    assert GoStrings.HasPrefix(first, "# ");
    GoStrings.TrimSpaceOfTrimmed(title);
    GoStrings.TrimSpaceOfTrimmed(description);
  }

  /** A README without a line break has an empty description. */
  lemma TitleOnly(title: string)
    requires '\n' !in title && GoStrings.Trimmed(title)
    ensures ParseReadme("# " + title) == Readme(title, "")
  {
    assert GoStrings.HasPrefix("# " + title, "# ");
    GoStrings.TrimSpaceOfTrimmed(title);
  }

  /** The prefix is removed before trimming, so a heading indented by a
      space keeps its "#" in the title. */
  lemma IndentedHeadingKeepsHash(title: string)
    requires '\n' !in title && GoStrings.Trimmed(title) && title != ""
    ensures ParseReadme(" # " + title).title == "# " + title
  {
    var line := " # " + title;
    assert line[0] == ' ' && "# "[0] == '#';
    assert !GoStrings.HasPrefix(line, "# ");
    assert line[1..] == "# " + title;
    assert GoStrings.SkipSpaces(line, 1) == 1;
    assert GoStrings.SkipSpaces(line, 0) == 1;
    assert line[|line| - 1] == title[|title| - 1];
    assert GoStrings.BackSpaces(line, 1, |line|) == |line|;
  }
}

=== FILE: submission_handler.dfy ===
/** The HTTP handlers of internal/submissions/handler.go. The authenticated
    user id comes from the bearer gate; the decoded JSON body (or the
    message of ReadJSON's error) and the `challenge_id` path parameter are inputs, and the
    validator's NotBlank, whose definition is not part of this model, is a
    parameter. A handler's answer is the list of responses it writes: Go's
    ResponseWriter keeps the first status written and appends every body. */
module SubmissionHandler {
  import opened Wrappers
  import opened Http
  import opened Database
  import opened SubmissionRepository
  import SubmissionService
  import GoStrconv

  /** What a response carries in its JSON envelope. */
  datatype Body =
    | Stored(submission: Submission)
    | Listing(submissions: seq<Submission>)
    | FieldErrors(errors: map<string, string>)
    | ErrorText(message: string)
    | NotFoundError

  datatype Response = Response(status: int, body: Body)

  /** The status a client sees: the first one written. */
  function EffectiveStatus(writes: seq<Response>): int
    requires |writes| >= 1
  {
    writes[0].status
  }

  const ServerErrorText: string := "internal server error"

  /** A reply together with the store after the request. */
  datatype CreateReply = CreateReply(response: Response, store: Store)

  /** The validator's findings for a decoded submission. */
  function ValidationErrors(sub: Submission, notBlank: string -> bool): (errs: map<string, string>)
    ensures "challenge_id" in errs <==> sub.challengeId == 0
    ensures "code" in errs <==> !notBlank(sub.code)
    ensures errs.Keys <= {"challenge_id", "code"}
    ensures forall k :: k in errs ==> errs[k] == "is required"
  {
    var byId: map<string, string> := if sub.challengeId == 0 then map["challenge_id" := "is required"] else map[];
    if notBlank(sub.code) then byId else byId["code" := "is required"]
  }

  /** CreateSubmissionsHandler: an undecodable body is 400; then the field
      checks (422 with one entry per failing field); then the pass check
      (400); then the store (500 on error, 201 with the stored submission). */
  function CreateSubmissionsHandler(s: Store, userId: int, body: Result<Submission, string>, notBlank: string -> bool,
                                    now: int, down: bool): (r: CreateReply)
    requires Valid(s)
    ensures Valid(r.store)
    ensures r.response.status in {StatusBadRequest, StatusUnprocessableEntity, StatusInternalServerError, StatusCreated}
    ensures body.Failure? ==> r.response == Response(StatusBadRequest, ErrorText(body.error))
    // validation comes before the pass check
    ensures r.response.status == StatusUnprocessableEntity <==>
      body.Success? && (body.value.challengeId == 0 || !notBlank(body.value.code))
    ensures r.response.status == StatusUnprocessableEntity ==>
      r.response.body == FieldErrors(ValidationErrors(body.value, notBlank))
    ensures body.Success? && body.value.challengeId != 0 && notBlank(body.value.code) ==>
      (r.response.status == StatusBadRequest <==> !body.value.passed)
    ensures r.response.status == StatusInternalServerError <==>
      body.Success? && body.value.challengeId != 0 && notBlank(body.value.code) && body.value.passed && down
    // only a 201 writes, and it answers with the row now stored for this user
    ensures r.response.status != StatusCreated ==> r.store == s
    ensures r.response.status == StatusCreated ==>
      var sub := body.value;
      && r.response.body.Stored?
      && r.response.body.submission.userId == userId
      && r.response.body.submission.challengeId == sub.challengeId
      && r.response.body.submission.code == sub.code
      && r.response.body.submission.passed
      && (userId, sub.challengeId) in r.store.rows
      && r.store.rows[(userId, sub.challengeId)] == r.response.body.submission
  {
    match body
    case Failure(message) => CreateReply(Response(StatusBadRequest, ErrorText(message)), s)
    case Success(sub) =>
      var errs := ValidationErrors(sub, notBlank);
      if |errs| > 0 then CreateReply(Response(StatusUnprocessableEntity, FieldErrors(errs)), s)
      else
        assert "challenge_id" !in errs && "code" !in errs;
        var c := SubmissionService.CreateSubmission(s, userId, sub, now, down);
        match c.result
        case Failure(NotPassed) =>
          CreateReply(Response(StatusBadRequest, ErrorText("submission did not pass the tests")), s)
        case Failure(_) => CreateReply(Response(StatusInternalServerError, ErrorText(ServerErrorText)), s)
        case Success(stored) => CreateReply(Response(StatusCreated, Stored(stored)), c.store)
  }

  /** GetSubmissionsHandler: 200 with the user's rows, or 500. */
  method GetSubmissionsHandler(s: Store, userId: int, down: bool) returns (r: Response)
    requires Valid(s)
    ensures r.status == StatusOk <==> !down
    ensures down ==> r == Response(StatusInternalServerError, ErrorText(ServerErrorText))
    ensures r.status == StatusOk ==>
      && r.body.Listing?
      && (forall x :: x in r.body.submissions <==> x in OwnedBy(s, userId))
      && (forall i, j :: 0 <= i < j < |r.body.submissions| ==> r.body.submissions[i] != r.body.submissions[j])
  {
    var listed := SubmissionService.GetUserSubmissions(s, userId, down);
    if listed.Failure? {
      return Response(StatusInternalServerError, ErrorText(ServerErrorText));
    }
    return Response(StatusOk, Listing(listed.value));
  }

  /** The response for a lookup result. */
  function LookupResponse(found: Result<Submission, SubmissionError>): Response {
    match found
    case Success(sub) => Response(StatusOk, Stored(sub))
    case Failure(NotFound) => Response(StatusNotFound, NotFoundError)
    case Failure(_) => Response(StatusInternalServerError, ErrorText(ServerErrorText))
  }

  const InvalidIdText: string := "invalid challenge_id"

  /** GetSubmissionHandler as written: when the path parameter does not
      parse, the 400 is written but the handler goes on, looks up the
      challenge id Atoi returned anyway (0, or the clamped bound on overflow)
      and writes a second response. */
  function GetSubmissionHandlerAsWritten(s: Store, userId: int, param: string, down: bool): (writes: seq<Response>)
    ensures 1 <= |writes| <= 2
    ensures |writes| == 2 <==> GoStrconv.Atoi(param).err.Some?
    ensures |writes| == 2 ==> writes[0] == Response(StatusBadRequest, ErrorText(InvalidIdText))
    ensures writes[|writes| - 1]
            == LookupResponse(GetByUserAndChallenge(s, userId, GoStrconv.Atoi(param).value, down))
  {
    var parsed := GoStrconv.Atoi(param);
    var rejected := if parsed.err.Some? then [Response(StatusBadRequest, ErrorText(InvalidIdText))] else [];
    rejected + [LookupResponse(SubmissionService.GetUserSubmission(s, userId, parsed.value, down))]
  }

  /** GetSubmissionHandler with the missing `return`: a parameter that does
      not parse gets the 400 and nothing else. */
  function GetSubmissionHandler(s: Store, userId: int, param: string, down: bool): (writes: seq<Response>)
    ensures |writes| == 1
    ensures EffectiveStatus(writes) == StatusBadRequest <==> GoStrconv.Atoi(param).err.Some?
    ensures GoStrconv.Atoi(param).err.None? ==>
      var challengeId := GoStrconv.Atoi(param).value;
      && (EffectiveStatus(writes) == StatusOk <==> !down && (userId, challengeId) in s.rows)
      && (EffectiveStatus(writes) == StatusOk ==> writes[0].body == Stored(s.rows[(userId, challengeId)]))
      && (EffectiveStatus(writes) == StatusNotFound <==> !down && (userId, challengeId) !in s.rows)
      && (EffectiveStatus(writes) == StatusInternalServerError <==> down)
  {
    var parsed := GoStrconv.Atoi(param);
    if parsed.err.Some? then [Response(StatusBadRequest, ErrorText(InvalidIdText))]
    else [LookupResponse(SubmissionService.GetUserSubmission(s, userId, parsed.value, down))]
  }

  /** The two versions agree whenever the parameter parses. */
  lemma HandlersAgreeOnValidIds(s: Store, userId: int, param: string, down: bool)
    requires GoStrconv.Atoi(param).err.None?
    ensures GetSubmissionHandlerAsWritten(s, userId, param, down) == GetSubmissionHandler(s, userId, param, down)
  {
  }

  /** The discrepancy, on a concrete request: the path parameter "abc" gets
      its 400, and then the lookup of challenge 0 appends a second response —
      here, the user's stored submission for challenge 0. */
  lemma AsWrittenAnswersTwice(s: Store, userId: int, sub: Submission)
    requires (userId, 0) in s.rows && s.rows[(userId, 0)] == sub
    ensures GetSubmissionHandlerAsWritten(s, userId, "abc", false)
            == [Response(StatusBadRequest, ErrorText(InvalidIdText)), Response(StatusOk, Stored(sub))]
    ensures GetSubmissionHandler(s, userId, "abc", false) == [Response(StatusBadRequest, ErrorText(InvalidIdText))]
  {
    assert GoStrconv.Atoi("abc") == GoStrconv.Parsed(0, Some(GoStrconv.ErrSyntax)) by {
      GoStrconv.AtoiFastPathAgrees("abc");
    }
  }

  /** Every parameter that is not a numeral, and whose digits before the
      first non-digit fit in 64 bits (any parameter of up to 19 characters
      after its sign, say), gets the 400 and then, as written, the lookup of
      challenge 0. The corrected handler writes only the 400. */
  lemma AsWrittenLooksUpZero(s: Store, userId: int, param: string, down: bool)
    requires !GoStrconv.Numeral(param)
    requires GoStrconv.Fold(GoStrconv.DigitPrefix(GoStrconv.Unsigned(param)), 0) <= GoStrconv.MaxUint64
    ensures GetSubmissionHandlerAsWritten(s, userId, param, down)
            == [Response(StatusBadRequest, ErrorText(InvalidIdText)),
                LookupResponse(GetByUserAndChallenge(s, userId, 0, down))]
    ensures GetSubmissionHandler(s, userId, param, down) == [Response(StatusBadRequest, ErrorText(InvalidIdText))]
  {
  }

  /** An overflowing parameter is looked up under the clamped bound: for
      the decimal form of 2^63, the as-written handler writes its 400 and
      then answers again for challenge 2^63-1. */
  lemma AsWrittenLooksUpClampedId(s: Store, userId: int, down: bool)
    ensures var param := GoStrconv.Decimal(GoStrconv.MaxInt64 + 1);
      GetSubmissionHandlerAsWritten(s, userId, param, down)
      == [Response(StatusBadRequest, ErrorText(InvalidIdText)),
          LookupResponse(GetByUserAndChallenge(s, userId, GoStrconv.MaxInt64, down))]
  {
    var param := GoStrconv.Decimal(GoStrconv.MaxInt64 + 1);
    GoStrconv.DecimalParses(GoStrconv.MaxInt64 + 1);
    assert GoStrconv.IsDigit(param[0]);
    assert GoStrconv.Atoi(param) == GoStrconv.Parsed(GoStrconv.MaxInt64, Some(GoStrconv.ErrRange));
  }

  /** The client's path round trip: a challenge id written in decimal is
      read back by the handler and finds exactly that row. */
  lemma LookupByDecimalId(s: Store, userId: int, challengeId: int, down: bool)
    requires GoStrconv.MinInt64 <= challengeId <= GoStrconv.MaxInt64
    ensures GetSubmissionHandler(s, userId, GoStrconv.Itoa(challengeId), down)
            == [LookupResponse(GetByUserAndChallenge(s, userId, challengeId, down))]
  {
    GoStrconv.AtoiItoa(challengeId);
  }

  /** Create, then read back: after a 201 for a challenge id in the int64
      range, GET on that id returns 200 with the same submission. */
  lemma CreatedSubmissionIsReadable(s: Store, userId: int, body: Result<Submission, string>, notBlank: string -> bool,
                                    now: int)
    requires Valid(s)
    requires CreateSubmissionsHandler(s, userId, body, notBlank, now, false).response.status == StatusCreated
    requires GoStrconv.MinInt64 <= body.value.challengeId <= GoStrconv.MaxInt64
    ensures var c := CreateSubmissionsHandler(s, userId, body, notBlank, now, false);
      GetSubmissionHandler(c.store, userId, GoStrconv.Itoa(body.value.challengeId), false)
      == [Response(StatusOk, c.response.body)]
  {
    var c := CreateSubmissionsHandler(s, userId, body, notBlank, now, false);
    var key := (userId, body.value.challengeId);
    assert key in c.store.rows && c.store.rows[key] == c.response.body.submission;
    LookupByDecimalId(c.store, userId, body.value.challengeId, false);
    assert GetByUserAndChallenge(c.store, userId, body.value.challengeId, false) == Success(c.response.body.submission);
  }
}

=== FILE: submission_repository.dfy ===
/** The `submissions` table of internal/submissions/repository.go, as a map
    from (user id, challenge id) — the table's unique pair, and the target
    of the upsert's ON CONFLICT — to the row. Ids come from a sequence;
    `down` stands for a failure of the database connection on that call. */
module SubmissionRepository {
  import opened Wrappers
  import opened Database

  datatype Submission = Submission(id: int, userId: int, challengeId: int, code: string, passed: bool,
                                   createdAt: int, updatedAt: int)

  /** (user id, challenge id) */
  type Key = (int, int)

  function KeyOf(sub: Submission): Key {
    (sub.userId, sub.challengeId)
  }

  datatype Store = Store(rows: map<Key, Submission>, nextId: int)

  /** Every row is filed under its own pair, ids come from the sequence, and
      no two rows share an id. */
  predicate Valid(s: Store) {
    && s.nextId >= 1
    && (forall k :: k in s.rows ==> KeyOf(s.rows[k]) == k && 1 <= s.rows[k].id < s.nextId)
    && (forall a, b :: a in s.rows && b in s.rows && s.rows[a].id == s.rows[b].id ==> a == b)
  }

  /** The error values of the submissions package. ErrSubmissionNotFound
      (from the repository) and ErrSubmissionNotPassed (from the service) are
      distinct values that carry the same text; any other error is passed up
      from the database as it is. */
  datatype SubmissionError = NotFound | NotPassed | Database(cause: DbError)

  function Message(e: SubmissionError): string
    requires !e.Database?
  {
    "submission not found"
  }

  /** The two package errors cannot be told apart by their text, only by
      identity (errors.Is). */
  lemma SameTextDistinctErrors()
    ensures NotFound != NotPassed && Message(NotFound) == Message(NotPassed)
  {
  }

  /** A store after Create, and the caller's submission as Create leaves
      it: on success, with the stored id and timestamps filled in. */
  datatype Change = Change(store: Store, result: Result<Submission, SubmissionError>)

  /** Create: INSERT ... ON CONFLICT (user_id, challenge_id) DO UPDATE. A new
      pair gets a fresh row stamped `now`; an existing pair keeps its id and
      created_at and takes the new code, passed flag and updated_at. The
      sequence is drawn on both paths, as PostgreSQL does. */
  function Create(s: Store, sub: Submission, now: int, down: bool): (r: Change)
    requires Valid(s)
    ensures Valid(r.store)
    ensures r.result.Success? <==> !down
    ensures down ==> r.store == s && r.result == Failure(Database(ConnectionError))
    ensures !down ==> r.store.rows.Keys == s.rows.Keys + {KeyOf(sub)}
    ensures !down ==>
      var key := KeyOf(sub);
      var stored := r.store.rows[key];
      && (forall k :: k in s.rows && k != key ==> r.store.rows[k] == s.rows[k])
      // the caller's struct now mirrors the stored row
      && r.result.value == stored
      && stored.userId == sub.userId && stored.challengeId == sub.challengeId
      && stored.code == sub.code && stored.passed == sub.passed && stored.updatedAt == now
      && (key !in s.rows ==> stored.createdAt == now && forall k :: k in s.rows ==> s.rows[k].id != stored.id)
      && (key in s.rows ==> stored.id == s.rows[key].id && stored.createdAt == s.rows[key].createdAt)
  {
    if down then Change(s, Failure(Database(ConnectionError)))
    else
      var key := KeyOf(sub);
      var stored :=
        if key in s.rows then sub.(id := s.rows[key].id, createdAt := s.rows[key].createdAt, updatedAt := now)
        else sub.(id := s.nextId, createdAt := now, updatedAt := now);
      Change(Store(s.rows[key := stored], s.nextId + 1), Success(stored))
  }

  /** GetByUserAndChallenge: the row for the pair; "no rows" becomes
      NotFound, any other error is passed through. */
  function GetByUserAndChallenge(s: Store, userId: int, challengeId: int, down: bool)
    : (r: Result<Submission, SubmissionError>)
    ensures r.Success? <==> !down && (userId, challengeId) in s.rows
    ensures r.Success? ==> r.value == s.rows[(userId, challengeId)]
    ensures r.Failure? ==> r.error == if down then Database(ConnectionError) else NotFound
  {
    if down then Failure(Database(ConnectionError))
    else if (userId, challengeId) !in s.rows then Failure(NotFound)
    else Success(s.rows[(userId, challengeId)])
  }

  /** The rows belonging to a user. */
  function OwnedBy(s: Store, userId: int): set<Submission> {
    set k | k in s.rows && k.0 == userId :: s.rows[k]
  }

  /** GetByUser: every row of the user, each once, in whatever order the
      database returns them (modelled by picking the next key arbitrarily). */
  method GetByUser(s: Store, userId: int, down: bool) returns (r: Result<seq<Submission>, SubmissionError>)
    requires Valid(s)
    ensures r.Success? <==> !down
    ensures r.Failure? ==> r.error == Database(ConnectionError)
    ensures r.Success? ==> forall x :: x in r.value <==> x in OwnedBy(s, userId)
    ensures r.Success? ==> forall i, j :: 0 <= i < j < |r.value| ==> r.value[i] != r.value[j]
  {
    if down {
      return Failure(Database(ConnectionError));
    }
    var pending := s.rows.Keys;
    var found: seq<Submission> := [];
    while pending != {}
      invariant pending <= s.rows.Keys
      invariant forall i :: 0 <= i < |found| ==>
        KeyOf(found[i]) in s.rows && KeyOf(found[i]) !in pending
        && s.rows[KeyOf(found[i])] == found[i] && found[i].userId == userId
      invariant forall k :: k in s.rows && k !in pending && k.0 == userId ==> s.rows[k] in found
      invariant forall i, j :: 0 <= i < j < |found| ==> found[i] != found[j]
      decreases |pending|
    {
      var k :| k in pending;
      if k.0 == userId {
        found := found + [s.rows[k]];
      }
      pending := pending - {k};
    }
    return Success(found);
  }

  /** What Create stores is what GetByUserAndChallenge then reads back. */
  lemma CreateThenGet(s: Store, sub: Submission, now: int)
    requires Valid(s)
    ensures var c := Create(s, sub, now, false);
      GetByUserAndChallenge(c.store, sub.userId, sub.challengeId, false) == c.result
  {
  }

  /** Submitting twice for the same pair leaves one row: the second code,
      the first row's id and creation time. */
  lemma UpsertKeepsIdentity(s: Store, sub1: Submission, sub2: Submission, t1: int, t2: int)
    requires Valid(s)
    requires KeyOf(sub1) == KeyOf(sub2)
    ensures var first := Create(s, sub1, t1, false);
      var second := Create(first.store, sub2, t2, false);
      && second.store.rows.Keys == first.store.rows.Keys
      && second.result.value.id == first.result.value.id
      && second.result.value.createdAt == first.result.value.createdAt
      && second.result.value.code == sub2.code
      && second.result.value.updatedAt == t2
  {
  }
}

=== FILE: submission_service.dfy ===
/** The submissions service of internal/submissions/service.go: a pass
    check in front of the repository's upsert, and two reads passed straight
    through. */
module SubmissionService {
  import opened Wrappers
  import opened Database
  import opened SubmissionRepository

  /** CreateSubmission: a submission that did not pass is refused with
      NotPassed before the repository is reached; otherwise it is stored
      under the authenticated user, whatever user id it carried. */
  function CreateSubmission(s: Store, userId: int, sub: Submission, now: int, down: bool): (r: Change)
    requires Valid(s)
    ensures Valid(r.store)
    ensures !sub.passed ==> r == Change(s, Failure(NotPassed))
    ensures sub.passed ==> r == Create(s, sub.(userId := userId), now, down)
    ensures r.result.Success? ==>
      && r.result.value.userId == userId
      && r.result.value.passed
      && (userId, sub.challengeId) in r.store.rows
      && r.store.rows[(userId, sub.challengeId)] == r.result.value
  {
    if !sub.passed then Change(s, Failure(NotPassed))
    else Create(s, sub.(userId := userId), now, down)
  }

  /** GetUserSubmission: the repository's lookup, unchanged. */
  function GetUserSubmission(s: Store, userId: int, challengeId: int, down: bool)
    : (r: Result<Submission, SubmissionError>)
    ensures r == GetByUserAndChallenge(s, userId, challengeId, down)
    ensures r.Failure? ==> r.error != NotPassed
  {
    GetByUserAndChallenge(s, userId, challengeId, down)
  }

  /** GetUserSubmissions: the repository's listing, unchanged. */
  method GetUserSubmissions(s: Store, userId: int, down: bool) returns (r: Result<seq<Submission>, SubmissionError>)
    requires Valid(s)
    ensures r.Success? <==> !down
    ensures r.Success? ==> forall x :: x in r.value <==> x in OwnedBy(s, userId)
    ensures r.Success? ==> forall i, j :: 0 <= i < j < |r.value| ==> r.value[i] != r.value[j]
  {
    r := GetByUser(s, userId, down);
  }

  /** Only passing submissions are ever stored: starting from a store of
      passing rows, any CreateSubmission keeps it so. */
  lemma OnlyPassingStored(s: Store, userId: int, sub: Submission, now: int, down: bool)
    requires Valid(s)
    requires forall k :: k in s.rows ==> s.rows[k].passed
    ensures var r := CreateSubmission(s, userId, sub, now, down);
      forall k :: k in r.store.rows ==> r.store.rows[k].passed
  {
  }

  /** A client cannot file a submission under another user: the row written
      belongs to the authenticated user, and no other user's rows change. */
  lemma SubmissionsStayWithTheirUser(s: Store, userId: int, sub: Submission, now: int, down: bool)
    requires Valid(s)
    ensures var r := CreateSubmission(s, userId, sub, now, down);
      forall k :: k in r.store.rows && k.0 != userId ==> k in s.rows && r.store.rows[k] == s.rows[k]
  {
  }
}

=== FILE: wrappers.dfy ===
/** Failure-carrying datatypes shared by every module of the model: the
    (value, error) pairs that Go returns become one of these. */
module Wrappers {

  /** A value that may be absent (a nil value, a missing map entry). */
  datatype Option<+T> = None | Some(value: T)

  /** Either a value or an error, for Go's `(T, error)` returns. */
  datatype Result<+T, +E> = Success(value: T) | Failure(error: E)

  /** No value, or an error, for Go's bare `error` returns. */
  datatype Outcome<+E> = Pass | Fail(error: E)
}
